=== FILE: README.md ===
# aria — a verified model of the chat app's core

aria is a Next.js chat application in front of the Mistral chat-completions API.
This project models the logic of its core in Dafny as pure state-transition functions and proves properties of them:

- the client decoder of the streamed reply;
- admission control: the per-IP fixed-window rate limiter, the global middleware and the daily quota;
- the two model routes;
- the client transcript and turn state, and the client helpers that save and open conversations;
- the message and conversation API routes over abstract tables;
- the next-auth callbacks;
- the password form of the user page.

Effects are parameters. That covers:

- the clock: an `int` in milliseconds;
- fresh ids;
- the session;
- the outcome of every `fetch` and database call, each a small datatype, including whether each daily-limit write lands;
- the JSON parser of the stream decoder, a function parameter.

Tables are sequences of rows in insertion order, which is `created_at` order.
State setters become fields of the record a helper returns.

One module per source file:

| module | file |
|---|---|
| `Wrappers`, `Seqs`, `Text`, `Http` | shared vocabulary: options, filtering and reversal, JavaScript string helpers, replies and sessions |
| `StreamDecoder` | `decode_stream.dfy` |
| `RateLimit`, `Middleware`, `DailyLimit` | `rate_limit.dfy`, `middleware.dfy`, `daily_limit.dfy` |
| `Upstream`, `ChatRoute`, `TitleRoute` | `upstream.dfy`, `chat_route.dfy`, `title_route.dfy` |
| `AskTitle`, `ConversationsContext`, `UserInput` | `ask_title.dfy`, `conversations_context.dfy`, `user_input.dfy` |
| `MessagesUtils`, `ConversationsUtils` | `messages_utils.dfy`, `conversations_utils.dfy` |
| `MessagesApi`, `ConversationsApi` | `messages_api.dfy`, `conversations_api.dfy` |
| `AuthConfig`, `UserPage` | `auth_config.dfy`, `user_page.dfy` |

What the code does not do, the model does not do either:

- the decoder does not reassemble lines across chunks;
- the chat route consults no daily quota, sanitises nothing and forwards the client's elements whatever their role or shape;
- the client helpers do not roll back.

`updateLastMessage` is called by the input box but the context file does not define it.
It is modelled as "replace the content of the last message".
`postConversation` receives `addConversation(id, title)`, while the context exposes `addConversation(title)`.
The model follows the helper's own signature.
The input box posts to `/api/mistral`, while the chat route is `src/app/api/mistral/chat/route.ts`, that is `/api/mistral/chat`.
The model takes the request as reaching the chat route.

## Model

| member | source | states |
|---|---|---|
| StreamDecoder.LineToken | src/lib/utils/decodeStram.ts:25-46 | a line yields a token iff it starts with `data: `, its trimmed payload is not `[DONE]`, and the parser returns a non-empty delta for that payload; the token is exactly that delta |
| StreamDecoder.NonBlank | src/lib/utils/decodeStram.ts:21 | the filter keeps exactly the non-blank lines: no blank line survives, every non-blank line is kept, nothing new appears |
| StreamDecoder.NonBlankAppend | src/lib/utils/decodeStram.ts:21 | the filter works piecewise over a concatenation, so the kept lines stay in order |
| StreamDecoder.NonBlankOne | src/lib/utils/decodeStram.ts:21 | a single line is kept iff it is not blank; with the row above this determines the filter on every list |
| StreamDecoder.DecodeLinesMeaning | src/lib/utils/decodeStram.ts:23-50 | decoding a chunk's lines appends the in-order concatenation of their tokens, calls back once per token and keeps the running-total shape |
| StreamDecoder.StepPreservesRunning | src/lib/utils/decodeStram.ts:46-49 | each callback argument extends the previous one and is a prefix of the content, and the last one is the content |
| StreamDecoder.DecodeLinesAppend | src/lib/utils/decodeStram.ts:23-50 | decoding two lists of lines one after the other is decoding their concatenation |
| StreamDecoder.DecodeChunksAppend | src/lib/utils/decodeStram.ts:14-51 | decoding two runs of chunks one after the other is decoding their concatenation |
| StreamDecoder.StreamTokensAppend | src/lib/utils/decodeStram.ts:14-51 | the accepted tokens of two runs of chunks are the tokens of each, in order |
| StreamDecoder.DecodeChunksMeaning | src/lib/utils/decodeStram.ts:14-51 | over any chunk sequence, the content grows by the concatenation of the accepted tokens, with one callback per token, and the running-total shape is kept |
| StreamDecoder.TotalsArePrefixConcats | src/lib/utils/decodeStram.ts:46-48 | the `i`-th running total from a base is the base followed by the first `i + 1` tokens |
| StreamDecoder.DecodeLinesTotals | src/lib/utils/decodeStram.ts:23-50 | decoding a chunk's lines appends, to the callback arguments, exactly the running totals of its tokens from the current content |
| StreamDecoder.DecodeChunksTotals | src/lib/utils/decodeStram.ts:14-51 | over any chunk sequence, the callback arguments grow by exactly the running totals of the accepted tokens |
| StreamDecoder.StreamMeaning | src/lib/utils/decodeStram.ts:11-51 | from the empty state, the result is the concatenation of the accepted tokens, and callback `i` receives the concatenation of the first `i + 1` tokens (tokens "He" then "llo" call back "He" then "Hello"); an empty stream gives `""` and no callback |
| StreamDecoder.BlankFilterIsRedundant | src/lib/utils/decodeStram.ts:21-25 | dropping blank lines changes nothing the loop would produce: a blank line is never a `data: ` line |
| StreamDecoder.DroppedLineIsInert | src/lib/utils/decodeStram.ts:21-40 | a blank, non-`data:`, `[DONE]`, unparseable or empty-delta line can be deleted from a chunk without effect, so it does not stop later lines |
| StreamDecoder.RechunkAtLineBreak | src/lib/utils/decodeStram.ts:20-21 | cutting a chunk exactly at one of its line breaks changes nothing |
| StreamDecoder.LineCutByChunkBoundaryIsLost | src/lib/utils/decodeStram.ts:20-25 | a `data:` line cut by a chunk boundary is lost: `["data: X"]` decodes to `X`, `["da", "ta: X"]` to `""` |
| StreamDecoder.DecodeChunkLoop | src/lib/utils/decodeStram.ts:21-50 | the imperative inner loop over one chunk's non-blank lines computes the fold over those lines |
| StreamDecoder.DecodeStream | src/lib/utils/decodeStram.ts:11-51 | the imperative loop returns the concatenation of the accepted tokens, and its `i`-th callback argument is the concatenation of the first `i + 1` tokens |
| Text.SplitLines | src/lib/utils/decodeStram.ts:21 | `split("\n")` always yields at least one piece |
| Text.SplitLinesHaveNoBreaks | src/lib/utils/decodeStram.ts:21 | no piece of `split("\n")` contains a line feed |
| Text.SplitThenJoin | src/lib/utils/decodeStram.ts:21 | joining the pieces with line feeds gives back the chunk |
| Text.Trim | src/lib/utils/decodeStram.ts:28 | the result has no whitespace at either end and is no longer than the input; trimmed input is kept, and the result is empty iff the input is all whitespace |
| Text.TrimRemovesOnlySurroundingSpace | src/lib/utils/decodeStram.ts:28 | the trim keeps a contiguous slice of the input and removes only whitespace, all of it before or after that slice |
| Text.TrimUnique | src/lib/utils/decodeStram.ts:28 | any trimmed slice with only whitespace around it is the trim: together with the row above, this characterises `trim` completely |
| Text.NatToString | src/app/api/mistral/title/route.ts:26 | the decimal rendering is a non-empty digit string with no leading zero |
| Text.NatToStringRoundTrip | src/app/api/mistral/title/route.ts:26 | the decimal rendering of a number reads back as that number |
| RateLimit.FirstField | src/lib/middlewares/rateLimit.ts:13 | `split(",")[0]` is the longest comma-free prefix |
| RateLimit.GetIP | src/lib/middlewares/rateLimit.ts:9-16 | the key is the trimmed first truthy header of `cf-connecting-ip`, `x-real-ip` and the first comma field of `x-forwarded-for`, else `unknown` |
| RateLimit.RateLimiter | src/lib/middlewares/rateLimit.ts:35-49 | a call changes only its own key; the live count (0 after expiry) goes up by one with reset `now + 60000` on a new window; it admits iff the new count is at most the limit; a new key is stored only when admitted, while an existing bucket grows even on rejection |
| RateLimit.FirstLimitCallsAdmitted | src/lib/middlewares/rateLimit.ts:39-49 | from an absent bucket at a constant clock, calls 1..N are admitted and every later call is rejected |
| RateLimit.BurstFrom | src/lib/middlewares/rateLimit.ts:39-49 | from a live bucket holding `c`, call `i` of a burst is admitted iff `c + i + 1` is within the limit |
| RateLimit.Sweep | src/lib/middlewares/rateLimit.ts:19-28 | the sweep drops exactly the buckets whose reset is before `now` and keeps the others unchanged |
| RateLimit.SweepAll | src/lib/middlewares/rateLimit.ts:19-28 | in both the global and the AI map, exactly the buckets whose reset is before `now` are dropped, and every other bucket stays unchanged |
| RateLimit.SweepIsUnobservable | src/lib/middlewares/rateLimit.ts:19-28 | a later call gives the same verdict and leaves the caller's bucket the same whether or not a sweep ran first |
| Middleware.Middleware | src/middleware.ts:6-19 | bypassed paths touch no bucket and continue; other paths update the global buckets with limit 25 and continue iff the live count is below 25; a rejection is the limiter's 429 |
| Middleware.HandleRequest | src/middleware.ts:21-23 | unmatched paths never reach the middleware |
| Middleware.MatchedPathsAreCounted | src/middleware.ts:8-23 | no `/api` path is bypassed, so every matched request is counted |
| Middleware.OneRequest | src/middleware.ts:12-18 | one matched request continues iff one limiter call admits, and leaves the same buckets |
| Middleware.RequestsAreBurst | src/middleware.ts:12-18 | a run of matched requests answers exactly as a run of limiter calls with limit 25 |
| Middleware.TwentySixthRequestLimited | src/middleware.ts:12-16 | a new client gets 25 requests through at one instant and the 26th is limited |
| DailyLimit.CeilDiv | src/lib/dailyLimit/checkUpdateDailyLimit.ts:30 | `Math.ceil(x / d)` is the least `q` with `x <= d * q` |
| DailyLimit.CheckAndUpdate | src/lib/dailyLimit/checkUpdateDailyLimit.ts:3-39 | a read error changes nothing; the decision is taken on the local copy, reset to count 0 for 24 hours when expired: a read error and only a read error is `ReadFailed`; allowed iff that count is below 2500, denied otherwise with `retryAfter = ceil((expiry - now) / 1000) >= 0`; the table gets the reset only if that write lands and the count plus one only if the increment lands, the increment leaving the expiry alone |
| DailyLimit.DecisionIgnoresWrites | src/lib/dailyLimit/checkUpdateDailyLimit.ts:20-39 | the errors of the two writes are never read: the answer is the same whether they land or not |
| DailyLimit.CountStaysWithinLimit | src/lib/dailyLimit/checkUpdateDailyLimit.ts:29-37 | a stored count within 2500 stays within 2500, whatever the writes do |
| DailyLimit.WithinWindow | src/lib/dailyLimit/checkUpdateDailyLimit.ts:17-37 | with every write landing, call `i` inside one window is allowed iff `count + i < 2500`, and otherwise denied with `retryAfter` the seconds left in the window, rounded up |
| DailyLimit.WithinWindowSaturated | src/lib/dailyLimit/checkUpdateDailyLimit.ts:29-31 | once the count reached the limit, every call in the window is denied with `retryAfter` the seconds left until the stored expiry, rounded up |
| DailyLimit.FreshWindowAllowsExactlyLimit | src/lib/dailyLimit/checkUpdateDailyLimit.ts:17-37 | with every write landing, exactly the first 2500 calls of a fresh window are allowed, and every later call in it is denied with `retryAfter` the seconds left until 24 hours after the opening call |
| DailyLimit.ExpiryChangesOnlyOnReset | src/lib/dailyLimit/checkUpdateDailyLimit.ts:17-26 | the stored expiry changes only when a successful read found the row expired and the reset write landed |
| DailyLimit.LostIncrementsAllowAll | src/lib/dailyLimit/checkUpdateDailyLimit.ts:29-39 | when the increment write never lands, a row below the limit stays put and every call in its window is allowed, however many |
| DailyLimit.LostResetsAllowAll | src/lib/dailyLimit/checkUpdateDailyLimit.ts:17-39 | when the reset write never lands, the stored expiry stays in the past and every later call is allowed |
| Upstream.ForwardAll | src/app/api/mistral/chat/route.ts:44 | one forwarded message per client element, in order, each wrapping that element as it is |
| Upstream.ForwardAllRoundTrip | src/app/api/mistral/chat/route.ts:39-45 | unwrapping the forwarded messages gives back the client's elements: nothing lost, added or reordered |
| ChatRoute.Post | src/app/api/mistral/chat/route.ts:12-74 | the AI limiter (5) runs first, then the key check (500), then the body: 400 for a non-array, 500 for a thrown read; the upstream list is the server's system message followed by every client element unchanged, of any role or shape; a non-OK upstream answer is passed on with its status and error text; a missing body gives 500; a thrown `fetch` gives 500 `Internal Server Error`; the body is streamed through on success |
| ChatRoute.UpstreamChat | src/app/api/mistral/chat/route.ts:37-48 | the request names `mistral-small-latest`, 2000 tokens and streaming; it holds one more message than the client sent, the server's system message first, then each client element at the next index unchanged, so dropping the first message gives back exactly the client's list |
| ChatRoute.IntroductionIffShortHistory | src/app/api/mistral/chat/route.ts:42 | the system message asks for a self-introduction iff the client sent fewer than 3 messages |
| ChatRoute.ClientSystemMessageIsForwarded | src/app/api/mistral/chat/route.ts:27-44 | a client element with the `system` role reaches the model right after the server's own, so the request carries two system messages |
| TitleRoute.RetryAfterHeader | src/app/api/mistral/title/route.ts:26 | the `Retry-After` value is a non-empty digit string that reads back as the seconds of the denial |
| TitleRoute.UserElementJsonInjective | src/app/api/mistral/title/route.ts:38-56 | different non-string `message` values give different user elements: the value reaches the API as it came |
| TitleRoute.Post | src/app/api/mistral/title/route.ts:7-79 | the limiter runs before the quota, so a limited request consumes none; the quota is consumed before the key check (the count goes up by one when the increment lands); a quota denial is a 429 carrying `Retry-After`, and a successful read of a full quota always gives that 429 with the seconds left in the window; the upstream request is the fixed instruction then the message verbatim, unstreamed, 300 tokens, a `message` that is absent or not a string being forwarded unchecked as the user element's content; a body whose read throws is a 500; a non-OK answer is passed on with its status and the text `Mistral API error: <status> <statusText> - <errorText>`, and a success is the upstream JSON unchanged |
| AskTitle.StripLeadingQuotes | src/lib/utils/askConversationTitle.ts:18 | the result is a suffix of the content, everything removed is a quote, and it does not start with a quote: the longest leading quote run is removed |
| AskTitle.StripTrailingQuotes | src/lib/utils/askConversationTitle.ts:18 | the result is a prefix of the content, everything removed is a quote, and it does not end with a quote: the longest trailing quote run is removed |
| AskTitle.CleanTitle | src/lib/utils/askConversationTitle.ts:18 | the cleaned title is never longer than the content and has no whitespace at either end; the two rows below pin down exactly which slice it is |
| AskTitle.CleanTitleRemovesOnlyOuterQuotesAndSpace | src/lib/utils/askConversationTitle.ts:18 | the title is a contiguous slice of the content: the longest leading and trailing quote runs are cut, then only whitespace around the title |
| AskTitle.CleanTitleUnique | src/lib/utils/askConversationTitle.ts:18 | any trimmed slice obtained by cutting the longest outer quote runs and then whitespace is the cleaned title: with the row above, this characterises the clean-up completely |
| AskTitle.CleanContentUnchanged | src/lib/utils/askConversationTitle.ts:18 | content with no quote or whitespace at either end comes back unchanged |
| AskTitle.QuotesInsideSpacesSurvive | src/lib/utils/askConversationTitle.ts:18 | quotes go before whitespace, so `" 'a' "` in outer quotes keeps its inner quotes, and cleaning is not idempotent |
| AskTitle.AskConversationTitle | src/lib/utils/askConversationTitle.ts:2-25 | a 429, a missing body or any throw gives the fallback; a response without a message gives no title; content gives exactly its cleaned form; any other title comes from content |
| ConversationsContext.AddMessage | src/app/contexts/ConversationsContext.tsx:47-54 | appends exactly one message with that role and content; earlier messages are unchanged |
| ConversationsContext.AddConversation | src/app/contexts/ConversationsContext.tsx:35-41 | appends exactly one conversation with that title and the fresh id |
| ConversationsContext.RemoveConversation | src/app/contexts/ConversationsContext.tsx:43-45 | no survivor has the id, and every survivor was there before |
| ConversationsContext.RemoveKeepsOthers | src/app/contexts/ConversationsContext.tsx:44 | every conversation with another id is kept as often as it occurred |
| ConversationsContext.RemoveDistributes | src/app/contexts/ConversationsContext.tsx:44 | removal works piecewise, so the survivors keep their order |
| ConversationsContext.RemoveAbsentIsIdentity | src/app/contexts/ConversationsContext.tsx:44 | removing an absent id leaves the list unchanged |
| ConversationsContext.RemoveIsIdempotent | src/app/contexts/ConversationsContext.tsx:43-45 | removing twice is removing once |
| ConversationsContext.UpdateLastMessage | src/components/UserInput.tsx:40 | only the content of the last message changes |
| ConversationsContext.ApplyUpdatesKeepsLast | src/components/UserInput.tsx:40 | after a run of updates only the last one is visible |
| UserInput.ToWireAll | src/components/UserInput.tsx:24 | one wire message per transcript message, in order |
| UserInput.HandleSubmit | src/components/UserInput.tsx:13-26 | input blank after trimming changes nothing and sends nothing; otherwise the transcript grows by the raw user message then an empty assistant placeholder, the input is cleared, and the payload is the new transcript minus the placeholder |
| UserInput.Turn | src/components/UserInput.tsx:13-45 | a thrown fetch or a missing body leaves the optimistic messages and the cleared input; the stream only ever rewrites the placeholder |
| UserInput.ApplyUpdatesKeepsPrefix | src/components/UserInput.tsx:40 | streamed updates keep every earlier message and the placeholder's id and role |
| UserInput.CompletedTurnTranscript | src/components/UserInput.tsx:28-40 | after a completed turn the placeholder holds the concatenation of the stream's tokens |
| MessagesUtils.PostMessages | src/lib/utils/messagesUtils.ts:4-35 | the user write comes first and the assistant write second, both for the same conversation; the second happens iff the first did not throw; a throw is rethrown as the save-failure text |
| MessagesUtils.FirstStatusIsIgnored | src/lib/utils/messagesUtils.ts:11-30 | an error status on the first write changes nothing |
| MessagesUtils.FetchMessages | src/lib/utils/messagesUtils.ts:38-76 | a narrow window hides the menu; a 429 sets the wait message; success replaces the transcript and the open id and clears loading; any other outcome changes nothing else |
| MessagesUtils.OnlySuccessOpens | src/lib/utils/messagesUtils.ts:47-75 | only a successful fetch changes the transcript or the open id, and no outcome clears an error |
| MessagesUtils.FetchAgainIsStable | src/lib/utils/messagesUtils.ts:38-76 | repeating the same fetch with the same answer changes nothing more |
| ConversationsUtils.PostConversation | src/lib/utils/conversationsUtils.ts:4-29 | sends the document title; on success records the server's conversation, opens it and returns its id; otherwise changes nothing and throws the save-failure text, naming status and text for a non-OK response |
| ConversationsUtils.ErrorNamesStatus | src/lib/utils/conversationsUtils.ts:15-28 | the status of a rejected creation can be read back from the thrown message |
| ConversationsUtils.DeleteConversation | src/lib/utils/conversationsUtils.ts:32-69 | deleting the open conversation clears the transcript and id; the list loses exactly that id, others kept as often as before; only a 429 changes the error |
| ConversationsUtils.NoRollback | src/lib/utils/conversationsUtils.ts:47-68 | the local effects are the same whatever the server answers |
| ConversationsUtils.DeleteIsIdempotent | src/lib/utils/conversationsUtils.ts:32-49 | deleting the same conversation again changes nothing more |
| ConversationsUtils.PostThenDelete | src/lib/utils/conversationsUtils.ts:20-49 | creating a new conversation and deleting it restores the list and leaves nothing open |
| Http.SessionUserId | src/app/api/messages/route.ts:10-12 | a route sees a user id iff the session carries a non-empty one |
| MessagesApi.InConversation | src/app/api/messages/route.ts:21-25 | every selected row belongs to the conversation and comes from the table, and every row of the conversation is selected |
| MessagesApi.InConversationKeepsOrder | src/app/api/messages/route.ts:21-25 | the selection works piecewise in table order, so the listing is in `created_at` order, and each row of the conversation appears as often as it is stored |
| MessagesApi.Get | src/app/api/messages/route.ts:7-32 | 401 without a user before any check, then 400 without an id, then 500 on a database error; otherwise 200 with that conversation's selection, in table order |
| MessagesApi.GetIgnoresCaller | src/app/api/messages/route.ts:21-25 | the listing does not depend on which user asks: it is not owner-scoped |
| MessagesApi.Post | src/app/api/messages/route.ts:35-71 | 401, then the conversation id, role and content checks in that order (empty strings rejected, any non-empty role accepted); a valid body gives the 201 exactly when the insert reports no error, and a 500 carrying the insert's error message otherwise; a table change happens only with the 201, which inserts exactly the one row it returns |
| MessagesApi.PostThenGet | src/app/api/messages/route.ts:56-64 | a stored message is listed last in its conversation, and other conversations' listings are unchanged |
| ConversationsApi.Owned | src/app/api/conversations/route.ts:16-20 | exactly the caller's rows are selected |
| ConversationsApi.Get | src/app/api/conversations/route.ts:7-27 | 401 without a user, 500 on a database error, otherwise 200 with the caller's conversations newest first |
| ConversationsApi.Post | src/app/api/conversations/route.ts:30-59 | 401, then 400 for a missing, empty or non-string title; a valid title gives the 201 exactly when the insert reports no error, and a 500 carrying the insert's error message otherwise; a table change happens only with the 201, which inserts one row owned by the caller |
| ConversationsApi.PostThenGetListsItFirst | src/app/api/conversations/route.ts:16-52 | a conversation just created is the first the caller lists |
| ConversationsApi.Delete | src/app/api/conversations/route.ts:62-88 | 401, then 400 without an id, then 500 on a database error; otherwise 200 even when nothing matched, with no surviving row of that id and caller |
| ConversationsApi.DeleteIsOwnerScoped | src/app/api/conversations/route.ts:77-81 | every row not matching both id and caller stays as often as it was, and other owners' listings are unchanged |
| AuthConfig.Redirect | src/lib/auth/authConfig.ts:155-168 | a url starting with the base is kept, a `/` path is prefixed, anything else becomes the base; every result starts with the base |
| AuthConfig.RedirectIsIdempotent | src/lib/auth/authConfig.ts:155-168 | redirecting a redirect target changes nothing |
| AuthConfig.RedirectAcceptsForeignHost | src/lib/auth/authConfig.ts:156-159 | the prefix test keeps `https://app.example.com.evil.net` for base `https://app.example.com`, which is not the same origin |
| AuthConfig.RedirectSameOrigin | src/lib/auth/authConfig.ts:155-168 | the corrected redirect only returns same-origin urls and keeps every same-origin url |
| AuthConfig.RedirectSameOriginAgrees | src/lib/auth/authConfig.ts:155-168 | the correction differs from the original only on urls that start with the base without staying on its origin |
| AuthConfig.SignIn | src/lib/auth/authConfig.ts:83-125 | no account refuses; other providers are allowed; a new Google user is inserted with `["Google"]`; a credentials-only user is marked for linking and sent to `/auth/link-google`; a refusal means no account or a failed write |
| AuthConfig.SignupAccountSkipsLinking | src/app/api/auth/signup/route.ts:32-36 | as written, an account created by sign-up has `["credentials"]`, so a Google sign-in on it is allowed with no linking and no write |
| AuthConfig.SignupAccountIsLinked | src/lib/auth/authConfig.ts:106-118 | with `["Credentials"]`, the same sign-in marks the account for linking and redirects to `/auth/link-google` |
| AuthConfig.SecondGoogleSignInWritesNothing | src/lib/auth/authConfig.ts:87-124 | a user that a Google sign-in created is allowed on the next Google sign-in with no write |
| AuthConfig.Jwt | src/lib/auth/authConfig.ts:146-152 | with a user the subject becomes the user's id; without one the token is unchanged |
| AuthConfig.JwtKeepsSubject | src/lib/auth/authConfig.ts:146-152 | repeating the sign-in call changes nothing, and a later call without a user keeps the subject |
| UserPage.CheckPasswords | src/app/user/page.tsx:34-43 | no error iff every checked field has at least 8 characters and new equals confirm; the length error takes precedence |
| UserPage.Settle | src/app/user/page.tsx:50-58 | success clears the three fields; failure shows the server's error, or the default when it is absent or empty |
| UserPage.UpdatePassword | src/app/user/page.tsx:30-60 | a request is sent iff all three fields have 8 characters and new equals confirm; it carries the current and new passwords only |
| UserPage.CreatePassword | src/app/user/page.tsx:63-94 | a request is sent iff new and confirm have 8 characters and are equal; it carries the new password only |
| UserPage.Submit | src/app/user/page.tsx:119 | the form uses the update iff the providers include `Credentials` |
| UserPage.CreateIgnoresCurrent | src/app/user/page.tsx:67-76 | the creation's request and error do not depend on the current-password field |
| UserPage.UpdateIsStricter | src/app/user/page.tsx:34-76 | every form the update accepts, the creation accepts with the same new password |

## Left out

- Network, database and browser I/O: each `fetch`, Supabase call, `res.json()` and `res.text()` is a parameter holding its outcome. A `res.text()` that throws on an error response is not modelled.
- `TextDecoder` and `JSON.parse`: chunks are already-decoded strings, and the parser is a function parameter.
- A reader error in the middle of the stream is not modelled: the chunk sequence is the whole stream.
- StreamDecoder.LineToken: a payload that parses to `null` makes `parsed.choices` throw outside the `try`, which aborts the decoder after the earlier tokens were delivered; the parser parameter has no such outcome, so that abort is not modelled.
- Clocks and timers: `Date.now()` and `new Date()` are integer parameters, and the `setInterval` sweep is a pure function applied when the caller chooses.
- `crypto.randomUUID` ids are parameters.
- Concurrency: the non-atomic read-then-write of the daily-limit row and concurrent access to the bucket maps. The model is sequential.
- TitleRoute.Post: the daily-limit error text is kept as its number of seconds, because `toFixed` hour formatting is floating point.
- Text.Trim: the whitespace set is space, tab, line feed, carriage return, vertical tab and form feed, not the full Unicode set of JavaScript `trim`.
- Text.Trim: its own contract does not carry the "only surrounding whitespace is removed" existential, because every caller would then carry it too; TrimRemovesOnlySurroundingSpace and TrimUnique state it over all inputs.
- AskTitle.CleanTitle: likewise, which slice of the content survives is stated by CleanTitleRemovesOnlyOuterQuotesAndSpace and CleanTitleUnique rather than by the function's own contract.
- UserPage.UpdatePassword: string length is counted in characters, not UTF-16 code units as JavaScript `.length` counts.
- The `session` callback and the credentials `authorize` (bcrypt, zod, sanitize-html) are not part of this model.
- UI rendering, toasts, scrolling, `setTimeout`, the session `update()` after creating a password, and the redirect to the login page are not modelled. So are the password, account and linking API routes, which the form calls. Of the sign-up route, only the `providers` list it stores is modelled, as the finding below needs.
- `updateLastMessage` is absent from the context source: its assumed meaning is stated above.

## Findings

| source | as written | input that shows it | evidently intended | confidence | as-written member | corrected member |
|---|---|---|---|---|---|---|
| src/app/api/auth/signup/route.ts:35 | sign-up stores `providers: ["credentials"]` in lower case, while `signIn` and the user page test for `"Credentials"` | a signed-up account signing in with Google | store `"Credentials"`, as the create-password route does, so the account goes through linking and the user page offers "Update password" | high, not executed | AuthConfig.SignupAccountSkipsLinking | AuthConfig.SignupAccountIsLinked |
| src/lib/auth/authConfig.ts:156-159 | `url.startsWith(baseUrl)` keeps any url whose text extends the base | url `https://app.example.com.evil.net`, base `https://app.example.com` | keep absolute urls only within the base's origin, as the comment says | high, not executed | AuthConfig.RedirectAcceptsForeignHost | AuthConfig.RedirectSameOrigin |

=== FILE: ask_title.dfy ===
/**
 * The client's title request (`askConversationTitle`): a 429 or any
 * failure falls back to a fixed title; otherwise the first choice's
 * content is cleaned of surrounding quotes and whitespace.
 */
module AskTitle {
  import opened Wrappers
  import opened Text

  const Fallback: string := "New conversation"

  /** `data.choices?.[0]?.message?.content` as the client reads it: the JSON
      read throws, there is no first choice or message (the optional chain
      yields `undefined`), the message has no string content (`.replace`
      throws), or the content. */
  datatype TitleJson = Unreadable | NoMessage | MessageWithoutContent | Content(text: string)

  datatype TitleResponse = FetchThrew | Responded(status: int, hasBody: bool, json: TitleJson)

  predicate IsQuote(c: char) {
    c == '"' || c == '\''
  }

  predicate AllQuotes(s: string) {
    forall i :: 0 <= i < |s| ==> IsQuote(s[i])
  }

  /** Removes the leading run of quote characters (`^["']+`): the result
      is a suffix, everything removed is a quote, and the run removed is
      the longest one. */
  function StripLeadingQuotes(s: string): (r: string)
    ensures |r| <= |s| && r == s[|s| - |r|..]
    ensures AllQuotes(s[..|s| - |r|])
    ensures r == [] || !IsQuote(r[0])
    decreases |s|
  {
    if |s| > 0 && IsQuote(s[0]) then
      var t := s[1..];
      var r := StripLeadingQuotes(t);
      assert s[..|s| - |r|] == [s[0]] + t[..|t| - |r|];
      r
    else s
  }

  /** Removes the trailing run of quote characters (`["']+$`): the result
      is a prefix, everything removed is a quote, and the run removed is
      the longest one. */
  function StripTrailingQuotes(s: string): (r: string)
    ensures |r| <= |s| && r == s[..|r|]
    ensures AllQuotes(s[|r|..])
    ensures r == [] || !IsQuote(r[|r| - 1])
    decreases |s|
  {
    if |s| > 0 && IsQuote(s[|s| - 1]) then
      var t := s[..|s| - 1];
      var r := StripTrailingQuotes(t);
      assert s[|r|..] == t[|r|..] + [s[|s| - 1]];
      r
    else s
  }

  /** `content.replace(/^["']+|["']+$/g, '').trim()`: the two alternatives
      of the global replace match the maximal leading and trailing quote
      runs, which never overlap. */
  function CleanTitle(content: string): (r: string)
    ensures |r| <= |content|
    ensures IsTrimmed(r)
  {
    Trim(StripTrailingQuotes(StripLeadingQuotes(content)))
  }

  /** `r` is what the clean-up leaves of `content` when the quotes removed
      are `content[..p]` and `content[q..]`, both runs as long as possible
      (the part between them neither starts nor ends with a quote), and the
      whitespace removed after that sits around `r` inside `content[p..q]`. */
  predicate CleanedAt(content: string, p: int, q: int, k: int, r: string) {
    && 0 <= p <= q <= |content|
    && AllQuotes(content[..p]) && AllQuotes(content[q..])
    && (p == q || (!IsQuote(content[p]) && !IsQuote(content[q - 1])))
    && SpaceAround(content[p..q], k, r)
  }

  /** The clean-up removes the outer quote runs and then the surrounding
      whitespace, and nothing else: the title is a contiguous slice of the
      content. */
  lemma CleanTitleRemovesOnlyOuterQuotesAndSpace(content: string)
    ensures exists p, q, k :: 0 <= p <= q <= |content| && CleanedAt(content, p, q, k, CleanTitle(content))
  {
    var v := StripTrailingQuotes(StripLeadingQuotes(content));
    var p, q := QuoteRuns(content);
    TrimRemovesOnlySurroundingSpace(v);
    var k :| 0 <= k <= |v| && SpaceAround(v, k, Trim(v));
    assert CleanedAt(content, p, q, k, CleanTitle(content));
  }

  /** Where the two quote runs the clean-up removes end and start. */
  lemma QuoteRuns(content: string) returns (p: int, q: int)
    ensures 0 <= p <= q <= |content|
    ensures content[p..q] == StripTrailingQuotes(StripLeadingQuotes(content))
    ensures AllQuotes(content[..p]) && AllQuotes(content[q..])
    ensures p == q || (!IsQuote(content[p]) && !IsQuote(content[q - 1]))
  {
    var u := StripLeadingQuotes(content);
    var v := StripTrailingQuotes(u);
    p, q := RunsAround(content, u, v);
  }

  /** The same, for any suffix `u` after a quote run and any prefix `v` of
      it before a quote run. */
  lemma RunsAround(content: string, u: string, v: string) returns (p: int, q: int)
    requires |u| <= |content| && u == content[|content| - |u|..]
    requires AllQuotes(content[..|content| - |u|])
    requires u == [] || !IsQuote(u[0])
    requires |v| <= |u| && v == u[..|v|] && AllQuotes(u[|v|..])
    requires v == [] || !IsQuote(v[|v| - 1])
    ensures 0 <= p <= q <= |content|
    ensures content[p..q] == v
    ensures AllQuotes(content[..p]) && AllQuotes(content[q..])
    ensures p == q || (!IsQuote(content[p]) && !IsQuote(content[q - 1]))
  {
    p := |content| - |u|;
    q := p + |v|;
    SuffixSlices(content, p, q);
    if p < q {
      assert content[p] == u[0];
      assert content[q - 1] == v[|v| - 1];
    }
  }

  /** Removing maximal outer quote runs and then whitespace leaves a
      trimmed string in one way only: it is `CleanTitle(content)`. */
  lemma CleanTitleUnique(content: string, p: int, q: int, k: int, r: string)
    requires CleanedAt(content, p, q, k, r) && IsTrimmed(r)
    ensures r == CleanTitle(content)
  {
    if p == q {
      forall i | 0 <= i < |content|
        ensures IsQuote(content[i])
      {
        if i < p {
          assert content[..p][i] == content[i];
        } else {
          assert content[q..][i - q] == content[i];
        }
      }
      StripAllQuotes(content);
      assert StripTrailingQuotes([]) == [] && Trim([]) == [];
    } else {
      QuoteRunsUnique(content, p, q);
      TrimUnique(content[p..q], k, r);
    }
  }

  /** Maximal outer quote runs are the ones the two strips remove. */
  lemma QuoteRunsUnique(content: string, p: nat, q: nat)
    requires p < q <= |content|
    requires AllQuotes(content[..p]) && AllQuotes(content[q..])
    requires !IsQuote(content[p]) && !IsQuote(content[q - 1])
    ensures StripTrailingQuotes(StripLeadingQuotes(content)) == content[p..q]
  {
    StripLeadingUnique(content, p);
    TrailingOfSuffix(content, p, q);
  }

  lemma TrailingOfSuffix(content: string, p: nat, q: nat)
    requires p < q <= |content|
    requires AllQuotes(content[q..]) && !IsQuote(content[q - 1])
    ensures StripTrailingQuotes(content[p..]) == content[p..q]
  {
    var u := content[p..];
    SuffixSlices(content, p, q);
    assert AllQuotes(u[q - p..]);
    assert !IsQuote(u[q - p - 1]);
    StripTrailingUnique(u, q - p);
  }

  /** How the slices of a suffix `s[p..]` line up with those of `s`. */
  lemma SuffixSlices(s: string, p: nat, q: nat)
    requires p <= q <= |s|
    ensures s[p..][q - p..] == s[q..] && s[p..][..q - p] == s[p..q]
    ensures p < q ==> s[p..][q - p - 1] == s[q - 1]
  {
  }

  lemma {:induction false} StripAllQuotes(s: string)
    requires AllQuotes(s)
    ensures StripLeadingQuotes(s) == []
    decreases |s|
  {
    if |s| > 0 {
      assert IsQuote(s[0]);
      StripAllQuotes(s[1..]);
    }
  }

  lemma {:induction false} StripLeadingUnique(s: string, p: nat)
    requires p < |s| && AllQuotes(s[..p]) && !IsQuote(s[p])
    ensures StripLeadingQuotes(s) == s[p..]
    decreases p
  {
    if p > 0 {
      assert s[..p][0] == s[0];
      assert s[1..][..p - 1] == s[1..p];
      StripLeadingUnique(s[1..], p - 1);
    }
  }

  lemma {:induction false} StripTrailingUnique(s: string, e: nat)
    requires 0 < e <= |s| && AllQuotes(s[e..]) && !IsQuote(s[e - 1])
    ensures StripTrailingQuotes(s) == s[..e]
    decreases |s| - e
  {
    if e < |s| {
      assert s[e..][|s| - 1 - e] == s[|s| - 1];
      var t := s[..|s| - 1];
      assert t[e..] == s[e..|s| - 1];
      StripTrailingUnique(t, e);
    }
  }

  /** Content with no quote or whitespace at either end comes back as it is. */
  lemma CleanContentUnchanged(content: string)
    requires content == [] || (!IsQuote(content[0]) && !IsSpace(content[0]))
    requires content == [] || (!IsQuote(content[|content| - 1]) && !IsSpace(content[|content| - 1]))
    ensures CleanTitle(content) == content
  {
  }

  lemma StripLeadingOnce(s: string)
    requires |s| >= 2 && IsQuote(s[0]) && !IsQuote(s[1])
    ensures StripLeadingQuotes(s) == s[1..]
  {
  }

  lemma StripTrailingOnce(s: string)
    requires |s| >= 2 && IsQuote(s[|s| - 1]) && !IsQuote(s[|s| - 2])
    ensures StripTrailingQuotes(s) == s[..|s| - 1]
  {
  }

  lemma TrimOnce(s: string)
    requires |s| >= 3 && IsSpace(s[0]) && IsSpace(s[|s| - 1])
    requires !IsSpace(s[1]) && !IsSpace(s[|s| - 2])
    ensures Trim(s) == s[1..|s| - 1]
  {
    assert TrimStart(s) == s[1..];
    var t := s[1..];
    assert TrimEnd(t) == t[..|t| - 1];
    assert t[..|t| - 1] == s[1..|s| - 1];
  }

  lemma StripPaddedQuoted()
    ensures StripTrailingQuotes(StripLeadingQuotes("\" 'a' \"")) == " 'a' "
  {
    var s := "\" 'a' \"";
    StripLeadingOnce(s);
    var t := s[1..];
    assert t == " 'a' \"";
    StripTrailingOnce(t);
    assert t[..|t| - 1] == " 'a' ";
  }

  lemma TrimPadded()
    ensures Trim(" 'a' ") == "'a'"
  {
    var u := " 'a' ";
    assert u[..1] == " " && u[1..4] == "'a'" && u[4..] == " ";
    TrimUnique(u, 1, "'a'");
  }

  lemma StripQuotedA()
    ensures StripTrailingQuotes(StripLeadingQuotes("'a'")) == "a"
  {
    var s := "'a'";
    StripLeadingOnce(s);
    var t := s[1..];
    assert t == "a'";
    StripTrailingOnce(t);
    assert t[..|t| - 1] == "a";
  }

  lemma TrimA()
    ensures Trim("a") == "a"
  {
    assert IsTrimmed("a");
  }

  lemma CleanQuoted()
    ensures CleanTitle("'a'") == "a"
  {
    StripQuotedA();
    TrimA();
  }

  /** The quotes are stripped before the whitespace, so a quoted title
      padded with spaces inside outer quotes keeps its inner quotes, and
      cleaning again would change it once more. */
  lemma QuotesInsideSpacesSurvive()
    ensures CleanTitle("\" 'a' \"") == "'a'"
    ensures CleanTitle(CleanTitle("\" 'a' \"")) == "a"
  {
    StripPaddedQuoted();
    TrimPadded();
    CleanQuoted();
  }

  /** The title the client ends up with; `None` is the `undefined` the
      optional chain yields. */
  function AskConversationTitle(resp: TitleResponse): (title: Option<string>)
    ensures resp.Responded? && resp.status == 429 ==> title == Some(Fallback)
    ensures resp.FetchThrew? ==> title == Some(Fallback)
    ensures resp.Responded? && resp.status != 429 && !resp.hasBody ==> title == Some(Fallback)
    ensures title == None <==> resp.Responded? && resp.status != 429 && resp.hasBody && resp.json == NoMessage
    ensures resp.Responded? && resp.status != 429 && resp.hasBody && resp.json.Content? ==>
      title == Some(CleanTitle(resp.json.text))
    ensures title.Some? && title.value != Fallback ==> resp.Responded? && resp.json.Content?
  {
    match resp
    case FetchThrew => Some(Fallback)
    case Responded(status, hasBody, json) =>
      if status == 429 then Some(Fallback)
      else if !hasBody then Some(Fallback)
      else match json
        case Unreadable => Some(Fallback)
        case NoMessage => None
        case MessageWithoutContent => Some(Fallback)
        case Content(text) => Some(CleanTitle(text))
  }
}

=== FILE: auth_config.dfy ===
/**
 * The next-auth callbacks of the authentication configuration: `redirect`
 * (pure string logic), `signIn` (with the `users` lookup and the outcome
 * of its one write passed in) and `jwt`.
 */
module AuthConfig {
  import opened Wrappers
  import opened Text

  // ---------------------------------------------------------------------
  // redirect

  /** `redirect({ url, baseUrl })` as written: any url that starts with
      `baseUrl` is returned unchanged. */
  function Redirect(url: string, baseUrl: string): (r: string)
    ensures StartsWith(r, baseUrl)
    ensures StartsWith(url, baseUrl) ==> r == url
    ensures !StartsWith(url, baseUrl) && StartsWith(url, "/") ==> r == baseUrl + url
    ensures r == url || r == baseUrl || r == baseUrl + url
  {
    if StartsWith(url, baseUrl) then url
    else if StartsWith(url, "/") then baseUrl + url
    else baseUrl
  }

  /** A redirect target is left alone by a second redirect. */
  lemma RedirectIsIdempotent(url: string, baseUrl: string)
    ensures Redirect(Redirect(url, baseUrl), baseUrl) == Redirect(url, baseUrl)
  {
  }

  /** `url` is `baseUrl` itself or a path, query or fragment below it: the
      same origin, when `baseUrl` is an origin. */
  predicate SameOrigin(url: string, baseUrl: string) {
    url == baseUrl
    || (StartsWith(url, baseUrl) && |url| > |baseUrl| && url[|baseUrl|] in "/?#")
  }

  /** The as-written guard lets a different host through: one whose name
      merely extends the base's host name. */
  lemma RedirectAcceptsForeignHost()
    ensures Redirect("https://app.example.com.evil.net", "https://app.example.com") == "https://app.example.com.evil.net"
    ensures !SameOrigin("https://app.example.com.evil.net", "https://app.example.com")
  {
    var url := "https://app.example.com.evil.net";
    var base := "https://app.example.com";
    assert url[..|base|] == base;
    assert url[|base|] == '.';
  }

  /** The redirect the "same origin" comment describes: absolute urls are
      kept only when they stay on the base origin. */
  function RedirectSameOrigin(url: string, baseUrl: string): (r: string)
    ensures SameOrigin(r, baseUrl)
    ensures SameOrigin(url, baseUrl) ==> r == url
    ensures r == url || r == baseUrl || r == baseUrl + url
  {
    if SameOrigin(url, baseUrl) then url
    else if StartsWith(url, "/") then baseUrl + url
    else baseUrl
  }

  /** The correction changes only the answer for urls that start with the
      base without staying on its origin; relative and foreign urls are
      treated as before. */
  lemma RedirectSameOriginAgrees(url: string, baseUrl: string)
    ensures SameOrigin(url, baseUrl) || !StartsWith(url, baseUrl) ==>
      RedirectSameOrigin(url, baseUrl) == Redirect(url, baseUrl)
    ensures StartsWith(RedirectSameOrigin(url, baseUrl), baseUrl)
  {
    var r := RedirectSameOrigin(url, baseUrl);
    if r != baseUrl {
      assert StartsWith(r, baseUrl);
    }
  }

  // ---------------------------------------------------------------------
  // signIn

  datatype Account = Account(provider: string)

  /** The `users` row found by email. */
  datatype UserRow = UserRow(id: string, providers: seq<string>)

  /** The one write `signIn` may perform: creating a Google user, or
      stamping `google_linking` on an existing one at time `now`. */
  datatype UserWrite = InsertUser(email: string, providers: seq<string>) | MarkLinking(userId: string, now: int)

  /** `false`, `true`, or a path to redirect to. */
  datatype SignInAnswer = Refuse | Allow | RedirectTo(path: string)

  datatype SignInResult = SignInResult(answer: SignInAnswer, write: Option<UserWrite>)

  const LinkGooglePath: string := "/auth/link-google"

  /** A credentials-only account signing in with Google. */
  predicate NeedsLinking(u: UserRow) {
    "Google" !in u.providers && "Credentials" in u.providers
  }

  /** `signIn({ user, account })`; `existing` is the lookup by email and
      `writeFails` whether the write, if one is made, reports an error. */
  function SignIn(account: Option<Account>, email: string, existing: Option<UserRow>,
                  writeFails: bool, now: int): (r: SignInResult)
    ensures account.None? ==> r == SignInResult(Refuse, None)
    ensures account.Some? && account.value.provider != "google" ==> r == SignInResult(Allow, None)
    ensures account == Some(Account("google")) && existing.None? ==>
      && r.write == Some(InsertUser(email, ["Google"]))
      && (r.answer == Refuse <==> writeFails)
      && (!writeFails ==> r.answer == Allow)
    ensures account == Some(Account("google")) && existing.Some? && NeedsLinking(existing.value) ==>
      && r.write == Some(MarkLinking(existing.value.id, now))
      && (r.answer == Refuse <==> writeFails)
      && (!writeFails ==> r.answer == RedirectTo(LinkGooglePath))
    ensures account == Some(Account("google")) && existing.Some? && !NeedsLinking(existing.value) ==>
      r == SignInResult(Allow, None)
    // A refusal has one of two causes, and the only redirect is to linking.
    ensures r.answer == Refuse <==> account.None? || (r.write.Some? && writeFails)
    ensures r.answer.RedirectTo? ==> r.answer.path == LinkGooglePath && r.write.Some? && r.write.value.MarkLinking?
  {
    match account
    case None => SignInResult(Refuse, None)
    case Some(a) =>
      if a.provider != "google" then SignInResult(Allow, None)
      else match existing
        case None =>
          SignInResult(if writeFails then Refuse else Allow, Some(InsertUser(email, ["Google"])))
        case Some(u) =>
          if NeedsLinking(u) then
            SignInResult(if writeFails then Refuse else RedirectTo(LinkGooglePath), Some(MarkLinking(u.id, now)))
          else SignInResult(Allow, None)
  }

  /** A user that a Google sign-in created signs in with Google again
      without a further write, whatever the time or the database does. */
  lemma SecondGoogleSignInWritesNothing(email: string, id: string, writeFails: bool, now: int, later: int)
    ensures var first := SignIn(Some(Account("google")), email, None, false, now);
      && first.answer == Allow
      && first.write.Some? && first.write.value.InsertUser?
      && SignIn(Some(Account("google")), email, Some(UserRow(id, first.write.value.providers)), writeFails, later)
         == SignInResult(Allow, None)
  {
    var providers := ["Google"];
    assert "Google" in providers;
  }

  /** The `providers` the sign-up route stores for an email/password
      account, as written: in lower case, unlike the tag `signIn` and the
      user page test for. */
  const SignupProvidersAsWritten: seq<string> := ["credentials"]

  /** The same list with the tag every reader of `providers` expects. */
  const SignupProviders: seq<string> := ["Credentials"]

  /** As written, a Google sign-in on a signed-up account is let through
      without the linking step, and no write is made. */
  lemma SignupAccountSkipsLinking(id: string, email: string, writeFails: bool, now: int)
    ensures !NeedsLinking(UserRow(id, SignupProvidersAsWritten))
    ensures SignIn(Some(Account("google")), email, Some(UserRow(id, SignupProvidersAsWritten)), writeFails, now)
            == SignInResult(Allow, None)
  {
  }

  /** With the expected tag, the same sign-in marks the account for
      linking and redirects there once the write lands. */
  lemma SignupAccountIsLinked(id: string, email: string, now: int)
    ensures NeedsLinking(UserRow(id, SignupProviders))
    ensures SignIn(Some(Account("google")), email, Some(UserRow(id, SignupProviders)), false, now)
            == SignInResult(RedirectTo(LinkGooglePath), Some(MarkLinking(id, now)))
  {
  }

  // ---------------------------------------------------------------------
  // jwt

  /** The token payload: its subject and the claims next-auth keeps. */
  datatype Token = Token(sub: Option<string>, claims: map<string, string>)

  datatype User = User(id: string)

  /** `jwt({ token, user })`: the user is present only on the first call
      after sign-in. */
  function Jwt(token: Token, user: Option<User>): (r: Token)
    ensures user.Some? ==> r.sub == Some(user.value.id)
    ensures user.None? ==> r == token
    ensures r.claims == token.claims
  {
    match user
    case None => token
    case Some(u) => token.(sub := Some(u.id))
  }

  /** A repeated sign-in call changes nothing, and the later calls, which
      carry no user, keep the subject set at sign-in. */
  lemma JwtKeepsSubject(token: Token, u: User)
    ensures Jwt(Jwt(token, Some(u)), Some(u)) == Jwt(token, Some(u))
    ensures Jwt(Jwt(token, Some(u)), None).sub == Some(u.id)
  {
  }
}

=== FILE: chat_route.dfy ===
/**
 * `POST /api/mistral/chat`: the streaming chat relay. It runs the AI-bucket
 * rate limiter (5 per minute), then checks the API key, then the body,
 * then forwards one server-written system message followed by the client's
 * messages and passes the upstream event stream through untouched. It does
 * not consult the daily quota and does not sanitise message content.
 */
module ChatRoute {
  import opened Wrappers
  import opened Http
  import opened RateLimit
  import opened ConversationsContext
  import opened Upstream

  const AiLimit: int := 5
  const ChatModel: string := "mistral-small-latest"
  const ChatMaxTokens: int := 2000
  const InvalidFormat: string := "Invalid messages format"
  const NoBody: string := "No response body from Mistral"

  const PreambleStart: string :=
    "You are Aria, a helpful assistant that always responds in the same language as the user. Add relevant emojis in titles or responses to make the message more lively and engaging \U{1F60A}. "
  const PresentYourself: string := "Don't forget to present yourself."
  const DoNotPresentYourself: string := "Do not present yourself."
  const PreambleEnd: string := " Avoid using HTML or Markdown tables; use lists or clear formatting instead."

  /** The server-written system message; `introduce` when the client sent
      fewer than 3 messages. */
  function SystemPrompt(introduce: bool): string
  {
    PreambleStart + (if introduce then PresentYourself else DoNotPresentYourself) + PreambleEnd
  }

  /** What `await req.json()` yields for the `messages` field: an array of
      elements of any shape, something else, or a thrown read. */
  datatype ChatBody = Messages(messages: seq<ClientElement>) | NotAnArray | Malformed

  /** The raw upstream event stream is passed through as an opaque value. */
  type Body = string

  datatype ChatResult = ChatResult(ai: Buckets, reply: Reply<Body>, sent: Option<UpstreamRequest>)

  /** The request body sent upstream: the server's system message, then
      every client element unchanged. */
  function UpstreamChat(msgs: seq<ClientElement>): (req: UpstreamRequest)
    ensures req.model == ChatModel && req.maxTokens == ChatMaxTokens && req.stream
    ensures |req.messages| == |msgs| + 1
    ensures req.messages[0] == System(SystemPrompt(|msgs| < 3))
    ensures forall i :: 0 <= i < |msgs| ==> req.messages[i + 1] == Forwarded(msgs[i])
    ensures ClientPart(req.messages) == msgs
  {
    var req := UpstreamRequest(ChatModel, [System(SystemPrompt(|msgs| < 3))] + ForwardAll(msgs), ChatMaxTokens, true);
    assert req.messages[1..] == ForwardAll(msgs);
    ForwardAllRoundTrip(msgs);
    req
  }

  /** What the route answers once the request went out: the `fetch`
      outcome decides it alone. */
  function Relay(upstream: Outcome<Body>): (reply: Reply<Body>)
    ensures upstream.Threw? ==> reply == ErrorReply(500, Text(InternalServerError), None)
    ensures upstream.Answered? && !IsOk(upstream.status) ==>
      reply == ErrorReply(upstream.status, Text(ApiErrorText(upstream.status, upstream.statusText, upstream.errorText)), None)
    ensures upstream.Answered? && IsOk(upstream.status) && upstream.body.None? ==> reply == ErrorReply(500, Text(NoBody), None)
    ensures upstream.Answered? && IsOk(upstream.status) && upstream.body.Some? ==> reply == EventStream(upstream.body.value)
  {
    match upstream
    case Threw => ErrorReply(500, Text(InternalServerError), None)
    case Answered(status, statusText, errorText, b) =>
      if !IsOk(status) then ErrorReply(status, Text(ApiErrorText(status, statusText, errorText)), None)
      else if b.None? then ErrorReply(500, Text(NoBody), None)
      else EventStream(b.value)
  }

  function Post(ai: Buckets, h: Headers, now: int, apiKey: Option<string>, body: ChatBody, upstream: Outcome<Body>): (r: ChatResult)
    // the limiter always runs first
    ensures r.ai == RateLimiter(ai, GetIP(h), now, AiLimit).buckets
    ensures RateLimiter(ai, GetIP(h), now, AiLimit).verdict == Rejected ==>
      r.reply == ErrorReply(429, Text(TooManyRequests), None) && r.sent == None
    // then the key, then the body
    ensures RateLimiter(ai, GetIP(h), now, AiLimit).verdict == Admitted && !Truthy(apiKey) ==>
      r.reply == ErrorReply(500, Text(ApiKeyNotConfigured), None) && r.sent == None
    ensures r.sent.Some? <==>
      RateLimiter(ai, GetIP(h), now, AiLimit).verdict == Admitted && Truthy(apiKey) && body.Messages?
    ensures RateLimiter(ai, GetIP(h), now, AiLimit).verdict == Admitted && Truthy(apiKey) && body.NotAnArray? ==>
      r.reply == ErrorReply(400, Text(InvalidFormat), None)
    ensures RateLimiter(ai, GetIP(h), now, AiLimit).verdict == Admitted && Truthy(apiKey) && body.Malformed? ==>
      r.reply == ErrorReply(500, Text(InternalServerError), None)
    // the upstream request: the server's system message, then every client
    // element unchanged, whatever its role or shape
    ensures r.sent.Some? ==>
      && r.sent.value.model == ChatModel && r.sent.value.maxTokens == ChatMaxTokens && r.sent.value.stream
      && |r.sent.value.messages| == |body.messages| + 1
      && r.sent.value.messages[0] == System(SystemPrompt(|body.messages| < 3))
      && (forall i :: 0 <= i < |body.messages| ==> r.sent.value.messages[i + 1] == Forwarded(body.messages[i]))
      && ClientPart(r.sent.value.messages) == body.messages
    // the upstream outcome
    ensures r.sent.Some? && upstream.Answered? && !IsOk(upstream.status) ==>
      r.reply == ErrorReply(upstream.status, Text(ApiErrorText(upstream.status, upstream.statusText, upstream.errorText)), None)
    ensures r.sent.Some? && upstream.Answered? && IsOk(upstream.status) && upstream.body.None? ==>
      r.reply == ErrorReply(500, Text(NoBody), None)
    // the catch-all: a thrown `fetch`
    ensures r.sent.Some? && upstream.Threw? ==> r.reply == ErrorReply(500, Text(InternalServerError), None)
    ensures r.reply.EventStream? <==>
      r.sent.Some? && upstream.Answered? && IsOk(upstream.status) && upstream.body.Some?
    ensures r.reply.EventStream? ==> r.reply.body == upstream.body.value
  {
    var gate := RateLimiter(ai, GetIP(h), now, AiLimit);
    if gate.verdict == Rejected then ChatResult(gate.buckets, ErrorReply(429, Text(TooManyRequests), None), None)
    else if !Truthy(apiKey) then ChatResult(gate.buckets, ErrorReply(500, Text(ApiKeyNotConfigured), None), None)
    else match body
      case Malformed => ChatResult(gate.buckets, ErrorReply(500, Text(InternalServerError), None), None)
      case NotAnArray => ChatResult(gate.buckets, ErrorReply(400, Text(InvalidFormat), None), None)
      case Messages(msgs) => ChatResult(gate.buckets, Relay(upstream), Some(UpstreamChat(msgs)))
  }

  /** The system message asks for a self-introduction exactly when the
      client sent fewer than three messages. */
  lemma IntroductionIffShortHistory(msgs: seq<ClientElement>)
    ensures UpstreamChat(msgs).messages[0] == System(SystemPrompt(true)) <==> |msgs| < 3
  {
    var a, b := SystemPrompt(true), SystemPrompt(false);
    assert a[|PreambleStart|] == 'D' && b[|PreambleStart| + 1] == 'o';
    assert a[|PreambleStart| + 1] == 'o' && b[|PreambleStart|] == 'D';
    assert a[|PreambleStart| + 2] == 'n' && b[|PreambleStart| + 2] == ' ';
  }

  /** The route does not look inside the client's elements: one that
      claims the `system` role reaches the model right after the server's
      own system message, so the request carries two system messages. */
  lemma ClientSystemMessageIsForwarded(ai: Buckets, h: Headers, now: int, apiKey: Option<string>,
                                        content: string, upstream: Outcome<Body>)
    requires RateLimiter(ai, GetIP(h), now, AiLimit).verdict == Admitted && Truthy(apiKey)
    ensures var r := Post(ai, h, now, apiKey, Messages([OtherRole("system", content)]), upstream);
      && r.sent.Some? && |r.sent.value.messages| == 2
      && r.sent.value.messages[0] == System(SystemPrompt(true))
      && r.sent.value.messages[1] == Forwarded(OtherRole("system", content))
      && HasSystemRole(r.sent.value.messages[0]) && HasSystemRole(r.sent.value.messages[1])
  {
    var msgs := [OtherRole("system", content)];
    var r := Post(ai, h, now, apiKey, Messages(msgs), upstream);
    assert r.sent.value.messages[0 + 1] == Forwarded(msgs[0]);
  }
}

=== FILE: conversations_api.dfy ===
/**
 * The `/api/conversations` route handlers over an abstract
 * `conversations` table, kept in insertion (`created_at`) order. Every
 * handler is scoped to the signed-in caller.
 */
module ConversationsApi {
  import opened Wrappers
  import opened Http
  import opened Seqs

  const MissingTitle: string := "Invalid or missing title"
  const MissingId: string := "Missing or invalid conversation ID"
  const Deleted: string := "Conversation deleted"

  /** A stored conversation and the user who owns it. */
  datatype ConversationRow = ConversationRow(id: string, userId: string, title: string)

  /** The `title` of the parsed body: absent, a string, or another value. */
  datatype TitleField = NoTitle | TitleText(text: string) | NonStringTitle

  datatype Handled<D> = Handled(reply: Reply<D>, table: seq<ConversationRow>)

  function NotSignedIn<D>(): Reply<D> {
    ErrorReply(401, Text(Unauthorized), None)
  }

  function Owned(table: seq<ConversationRow>, userId: string): (r: seq<ConversationRow>)
    ensures forall i :: 0 <= i < |r| ==> r[i].userId == userId && r[i] in table
    ensures forall i :: 0 <= i < |table| && table[i].userId == userId ==> table[i] in r
  {
    Filter(table, (c: ConversationRow) => c.userId == userId)
  }

  /** `GET /api/conversations`: the caller's conversations, newest first. */
  function Get(session: Option<string>, table: seq<ConversationRow>, dbError: Option<string>): (r: Reply<seq<ConversationRow>>)
    ensures !Truthy(session) ==> r == NotSignedIn()
    ensures Truthy(session) && dbError.Some? ==> r == ErrorReply(500, Text(dbError.value), None)
    ensures r.JsonReply? <==> Truthy(session) && dbError.None?
    ensures r.JsonReply? ==>
      && r.status == 200
      && |r.data| == |Owned(table, session.value)|
      && (forall i :: 0 <= i < |r.data| ==>
            r.data[i] == Owned(table, session.value)[|r.data| - 1 - i] && r.data[i].userId == session.value)
  {
    if SessionUserId(session).None? then NotSignedIn()
    else if dbError.Some? then ErrorReply(500, Text(dbError.value), None)
    else JsonReply(200, Reverse(Owned(table, session.value)))
  }

  /** `POST /api/conversations`. `body` is `None` when `req.json()` throws. */
  function Post(session: Option<string>, body: Option<TitleField>, table: seq<ConversationRow>,
                freshId: string, dbError: Option<string>): (r: Handled<ConversationRow>)
    ensures !Truthy(session) ==> r == Handled(NotSignedIn(), table)
    ensures Truthy(session) && body.None? ==> r == Handled(Uncaught, table)
    ensures Truthy(session) && body.Some? && !(body.value.TitleText? && body.value.text != "") ==>
      r == Handled(ErrorReply(400, Text(MissingTitle), None), table)
    // a valid title is stored unless the insert reports an error
    ensures Truthy(session) && body.Some? && body.value.TitleText? && body.value.text != "" && dbError.Some? ==>
      r == Handled(ErrorReply(500, Text(dbError.value), None), table)
    ensures r.reply.JsonReply? <==>
      Truthy(session) && body.Some? && body.value.TitleText? && body.value.text != "" && dbError.None?
    ensures r.table != table ==> r.reply.JsonReply?
    ensures r.reply.JsonReply? ==>
      && Truthy(session) && body.Some? && body.value.TitleText? && body.value.text != "" && dbError.None?
      && r.reply.status == 201
      && r.reply.data == ConversationRow(freshId, session.value, body.value.text)
      && r.table == table + [r.reply.data]
  {
    if SessionUserId(session).None? then Handled(NotSignedIn(), table)
    else match body
      case None => Handled(Uncaught, table)
      case Some(t) =>
        if !(t.TitleText? && t.text != "") then Handled(ErrorReply(400, Text(MissingTitle), None), table)
        else if dbError.Some? then Handled(ErrorReply(500, Text(dbError.value), None), table)
        else
          var row := ConversationRow(freshId, session.value, t.text);
          Handled(JsonReply(201, row), table + [row])
  }

  /** A conversation just created is the first one the caller lists. */
  lemma PostThenGetListsItFirst(session: Option<string>, title: string, table: seq<ConversationRow>, freshId: string)
    requires Truthy(session) && title != ""
    ensures var p := Post(session, Some(TitleText(title)), table, freshId, None);
      var g := Get(session, p.table, None);
      g.JsonReply? && |g.data| > 0 && g.data[0] == p.reply.data
  {
    var p := Post(session, Some(TitleText(title)), table, freshId, None);
    FilterAppend(table, [p.reply.data], (c: ConversationRow) => c.userId == session.value);
  }

  /** The rows a delete by `userId` of `id` keeps. */
  function Survivors(table: seq<ConversationRow>, id: string, userId: string): seq<ConversationRow> {
    Filter(table, (c: ConversationRow) => !(c.id == id && c.userId == userId))
  }

  /** `DELETE /api/conversations?id=…`. The reply is 200 whether or not a
      row matched. */
  function Delete(session: Option<string>, query: Option<string>, table: seq<ConversationRow>,
                  dbError: Option<string>): (r: Handled<string>)
    ensures !Truthy(session) ==> r == Handled(NotSignedIn(), table)
    ensures Truthy(session) && !Truthy(query) ==> r == Handled(ErrorReply(400, Text(MissingId), None), table)
    ensures Truthy(session) && Truthy(query) && dbError.Some? ==> r == Handled(ErrorReply(500, Text(dbError.value), None), table)
    ensures r.reply.JsonReply? <==> Truthy(session) && Truthy(query) && dbError.None?
    ensures r.reply.JsonReply? ==> r.reply == JsonReply(200, Deleted)
    ensures r.table != table ==> r.reply.JsonReply?
    ensures forall i :: 0 <= i < |r.table| ==> r.table[i] in table
    ensures r.reply.JsonReply? ==>
      forall i :: 0 <= i < |r.table| ==> !(r.table[i].id == query.value && r.table[i].userId == session.value)
  {
    if SessionUserId(session).None? then Handled(NotSignedIn(), table)
    else if !Truthy(query) then Handled(ErrorReply(400, Text(MissingId), None), table)
    else if dbError.Some? then Handled(ErrorReply(500, Text(dbError.value), None), table)
    else Handled(JsonReply(200, Deleted), Survivors(table, query.value, session.value))
  }

  /** A delete removes exactly the caller's rows with that id: every other
      row stays as often as it was there, and other owners' listings are
      untouched. */
  lemma DeleteIsOwnerScoped(session: Option<string>, id: string, table: seq<ConversationRow>, row: ConversationRow, other: string)
    requires Truthy(session) && id != ""
    requires !(row.id == id && row.userId == session.value)
    requires other != session.value
    ensures var r := Delete(session, Some(id), table, None);
      && multiset(r.table)[row] == multiset(table)[row]
      && Owned(r.table, other) == Owned(table, other)
  {
    var keep := (c: ConversationRow) => !(c.id == id && c.userId == session.value);
    var mine := (c: ConversationRow) => c.userId == other;
    FilterCount(table, keep, row);
    FilterFilter(table, keep, mine, mine);
  }
}

=== FILE: conversations_context.dfy ===
/**
 * The client-side conversation state (`ConversationsProvider`): the list
 * of conversations, the transcript of the open conversation and its id.
 * Fresh ids (`crypto.randomUUID`) are parameters.
 */
module ConversationsContext {
  import opened Wrappers

  /** The two message roles; nothing else can be stored in the transcript. */
  datatype Role = User | Assistant

  datatype Message = Message(id: string, role: Role, content: string)

  datatype Conversation = Conversation(id: string, title: string)

  /** A message as it travels in a JSON request body: client-side messages
      carry their id, a message built for a request has none. */
  datatype WireMessage = WireMessage(id: Option<string>, role: Role, content: string)

  function ToWire(m: Message): WireMessage {
    WireMessage(Some(m.id), m.role, m.content)
  }

  /** `addMessage(role, content)` */
  function AddMessage(msgs: seq<Message>, role: Role, content: string, freshId: string): (r: seq<Message>)
    ensures |r| == |msgs| + 1
    ensures r[..|msgs|] == msgs
    ensures r[|msgs|].role == role && r[|msgs|].content == content
  {
    msgs + [Message(freshId, role, content)]
  }

  /** `addConversation(title)` */
  function AddConversation(convs: seq<Conversation>, title: string, freshId: string): (r: seq<Conversation>)
    ensures |r| == |convs| + 1
    ensures r[..|convs|] == convs
    ensures r[|convs|] == Conversation(freshId, title)
  {
    convs + [Conversation(freshId, title)]
  }

  /** `prev.filter((conv) => conv.id !== id)` */
  function RemoveConversation(convs: seq<Conversation>, id: string): (r: seq<Conversation>)
    ensures |r| <= |convs|
    ensures forall i :: 0 <= i < |r| ==> r[i].id != id
    ensures forall c :: c in r ==> c in convs
    decreases |convs|
  {
    if |convs| == 0 then []
    else if convs[0].id == id then RemoveConversation(convs[1..], id)
    else [convs[0]] + RemoveConversation(convs[1..], id)
  }

  /** Removal keeps every other conversation, as often as it occurred. */
  lemma {:induction false} RemoveKeepsOthers(convs: seq<Conversation>, id: string, c: Conversation)
    requires c.id != id
    ensures multiset(RemoveConversation(convs, id))[c] == multiset(convs)[c]
    decreases |convs|
  {
    if |convs| > 0 {
      RemoveKeepsOthers(convs[1..], id, c);
      assert convs == [convs[0]] + convs[1..];
    }
  }

  /** Removal works piecewise, so the survivors keep their relative order. */
  lemma {:induction false} RemoveDistributes(a: seq<Conversation>, b: seq<Conversation>, id: string)
    ensures RemoveConversation(a + b, id) == RemoveConversation(a, id) + RemoveConversation(b, id)
    decreases |a|
  {
    if |a| == 0 {
      assert a + b == b;
    } else {
      assert (a + b)[0] == a[0];
      assert (a + b)[1..] == a[1..] + b;
      RemoveDistributes(a[1..], b, id);
    }
  }

  /** Removing an id no conversation has changes nothing. */
  lemma {:induction false} RemoveAbsentIsIdentity(convs: seq<Conversation>, id: string)
    requires forall i :: 0 <= i < |convs| ==> convs[i].id != id
    ensures RemoveConversation(convs, id) == convs
    decreases |convs|
  {
    if |convs| > 0 {
      RemoveAbsentIsIdentity(convs[1..], id);
      assert convs == [convs[0]] + convs[1..];
    }
  }

  /** Removing twice is removing once. */
  lemma RemoveIsIdempotent(convs: seq<Conversation>, id: string)
    ensures RemoveConversation(RemoveConversation(convs, id), id) == RemoveConversation(convs, id)
  {
    RemoveAbsentIsIdentity(RemoveConversation(convs, id), id);
  }

  /** `updateLastMessage(content)`: the streamed content replaces the
      content of the last message; every other message is unchanged. */
  function UpdateLastMessage(msgs: seq<Message>, content: string): (r: seq<Message>)
    ensures |r| == |msgs|
    ensures |msgs| > 0 ==> r[..|msgs| - 1] == msgs[..|msgs| - 1]
    ensures |msgs| > 0 ==> r[|msgs| - 1] == msgs[|msgs| - 1].(content := content)
    ensures |msgs| == 0 ==> r == msgs
  {
    if |msgs| == 0 then msgs else msgs[..|msgs| - 1] + [msgs[|msgs| - 1].(content := content)]
  }

  /** Applying the callback arguments one after the other. */
  function ApplyUpdates(msgs: seq<Message>, updates: seq<string>): (r: seq<Message>)
    ensures |r| == |msgs|
    decreases |updates|
  {
    if |updates| == 0 then msgs else ApplyUpdates(UpdateLastMessage(msgs, updates[0]), updates[1..])
  }

  /** Only the last update is visible afterwards. */
  lemma {:induction false} ApplyUpdatesKeepsLast(msgs: seq<Message>, updates: seq<string>)
    requires |msgs| > 0 && |updates| > 0
    ensures ApplyUpdates(msgs, updates) == UpdateLastMessage(msgs, updates[|updates| - 1])
    decreases |updates|
  {
    if |updates| > 1 {
      var m1 := UpdateLastMessage(msgs, updates[0]);
      ApplyUpdatesKeepsLast(m1, updates[1..]);
      assert updates[1..][|updates[1..]| - 1] == updates[|updates| - 1];
      assert m1[..|m1| - 1] == msgs[..|msgs| - 1];
      assert UpdateLastMessage(m1, updates[|updates| - 1]) == UpdateLastMessage(msgs, updates[|updates| - 1]);
    }
  }
}

=== FILE: conversations_utils.dfy ===
/**
 * The client helpers for stored conversations: `postConversation` creates
 * one on the server and records it locally, `deleteConversation` removes
 * one locally first and then on the server, with no rollback. The state
 * setters the helpers receive become fields of the record they return.
 */
module ConversationsUtils {
  import opened Wrappers
  import opened Text
  import opened Http
  import opened ConversationsContext

  const SavePrefix: string := "Error saving conversation to db: "
  const CreatePrefix: string := "Failed to create conversation: "

  /** The client state the two helpers can touch. */
  datatype ListView = ListView(conversations: seq<Conversation>, messages: seq<Message>,
                               conversationId: string, error: Option<string>)

  /** A JSON body read: the parsed conversation, or the message of the
      error the read threw. */
  datatype JsonRead = Parsed(conversation: Conversation) | ReadThrew(message: string)

  /** What `POST /api/conversations` produced: a thrown `fetch` (with its
      message), or a response with its status, its text (read when not OK)
      and its JSON (read when OK). */
  datatype PostResponse = PostThrew(message: string) | PostAnswered(status: nat, text: string, json: JsonRead)

  /** How the helper settles: it returns the new id, or throws. */
  datatype Settled = Returned(id: string) | Thrown(message: string)

  datatype PostResult = PostResult(sentTitle: string, view: ListView, outcome: Settled)

  predicate Created(resp: PostResponse) {
    resp.PostAnswered? && IsOk(resp.status) && resp.json.Parsed?
  }

  /** `postConversation(addConversation, setConversationId)` with
      `document.title` as a parameter. */
  function PostConversation(v: ListView, documentTitle: string, resp: PostResponse): (r: PostResult)
    ensures r.sentTitle == documentTitle
    ensures Created(resp) ==>
      var c := resp.json.conversation;
      && r.view == v.(conversations := AddConversation(v.conversations, c.title, c.id), conversationId := c.id)
      && r.outcome == Returned(c.id)
    ensures !Created(resp) ==> r.view == v && r.outcome.Thrown? && StartsWith(r.outcome.message, SavePrefix)
    ensures resp.PostAnswered? && !IsOk(resp.status) ==>
      r.outcome == Thrown(SavePrefix + CreatePrefix + NatToString(resp.status) + " - " + resp.text)
  {
    match resp
    case PostThrew(message) => PostResult(documentTitle, v, Thrown(SavePrefix + message))
    case PostAnswered(status, text, json) =>
      if !IsOk(status) then
        PostResult(documentTitle, v, Thrown(SavePrefix + CreatePrefix + NatToString(status) + " - " + text))
      else match json
        case ReadThrew(message) => PostResult(documentTitle, v, Thrown(SavePrefix + message))
        case Parsed(c) =>
          PostResult(documentTitle,
                     v.(conversations := AddConversation(v.conversations, c.title, c.id), conversationId := c.id),
                     Returned(c.id))
  }

  /** The status a creation-failure message names, read back from it. */
  function StatusNamed(message: string): Option<nat> {
    var p := SavePrefix + CreatePrefix;
    if !StartsWith(message, p) then None
    else
      var digits := LeadingDigits(message[|p|..]);
      if digits == [] then None else Some(DigitsValue(digits))
  }

  /** A rejected creation throws an error from which its status can be
      recovered. */
  lemma ErrorNamesStatus(v: ListView, documentTitle: string, status: nat, text: string, json: JsonRead)
    requires !IsOk(status)
    ensures var r := PostConversation(v, documentTitle, PostAnswered(status, text, json));
      r.outcome.Thrown? && StatusNamed(r.outcome.message) == Some(status)
  {
    var p := SavePrefix + CreatePrefix;
    var digits := NatToString(status);
    var rest := " - " + text;
    var m := p + digits + rest;
    assert PostConversation(v, documentTitle, PostAnswered(status, text, json)).outcome.message == m;
    assert m[..|p|] == p;
    assert m[|p|..] == digits + rest;
    LeadingDigitsOfPrefix(digits, rest);
    NatToStringRoundTrip(status);
  }

  /** What `DELETE /api/conversations` produced. */
  datatype DeleteResponse = DeleteThrew | DeleteAnswered(status: int)

  /** `deleteConversation(conversation_id, conversationId, …)`. The local
      list is filtered before the request and is never restored. */
  function DeleteConversation(v: ListView, id: string, resp: DeleteResponse): (r: ListView)
    ensures id == v.conversationId ==> r.messages == [] && r.conversationId == ""
    ensures id != v.conversationId ==> r.messages == v.messages && r.conversationId == v.conversationId
    ensures r.conversations == RemoveConversation(v.conversations, id)
    ensures forall i :: 0 <= i < |r.conversations| ==> r.conversations[i].id != id
    ensures forall c: Conversation :: c.id != id ==> multiset(r.conversations)[c] == multiset(v.conversations)[c]
    ensures resp == DeleteAnswered(429) ==> r.error == Some(TooManyRequests)
    ensures resp != DeleteAnswered(429) ==> r.error == v.error
  {
    var cleared := if id == v.conversationId then v.(messages := [], conversationId := "") else v;
    var removed := cleared.(conversations := RemoveConversation(v.conversations, id));
    assert forall c: Conversation :: c.id != id ==> multiset(removed.conversations)[c] == multiset(v.conversations)[c] by {
      forall c: Conversation | c.id != id {
        RemoveKeepsOthers(v.conversations, id, c);
      }
    }
    if resp == DeleteAnswered(429) then removed.(error := Some(TooManyRequests)) else removed
  }

  /** The server's answer decides only the error text: the local effects
      are the same whether the delete succeeded, was rate limited or
      failed. */
  lemma NoRollback(v: ListView, id: string, a: DeleteResponse, b: DeleteResponse)
    ensures DeleteConversation(v, id, a).(error := v.error) == DeleteConversation(v, id, b).(error := v.error)
  {
  }

  /** Deleting the same conversation again changes nothing more. */
  lemma DeleteIsIdempotent(v: ListView, id: string, resp: DeleteResponse)
    ensures var r := DeleteConversation(v, id, resp);
      DeleteConversation(r, id, resp) == r
  {
    RemoveIsIdempotent(v.conversations, id);
  }

  /** Creating a conversation whose id is new and then deleting it leaves
      the list as it was and nothing open. */
  lemma PostThenDelete(v: ListView, documentTitle: string, resp: PostResponse, del: DeleteResponse)
    requires Created(resp)
    requires forall i :: 0 <= i < |v.conversations| ==> v.conversations[i].id != resp.json.conversation.id
    ensures var p := PostConversation(v, documentTitle, resp);
      var r := DeleteConversation(p.view, p.outcome.id, del);
      r.conversations == v.conversations && r.conversationId == "" && r.messages == []
  {
    var c := resp.json.conversation;
    RemoveDistributes(v.conversations, [c], c.id);
    RemoveAbsentIsIdentity(v.conversations, c.id);
  }
}

=== FILE: daily_limit.dfy ===
/**
 * The process-wide daily quota on upstream model calls
 * (`checkAndUpdateDailyLimit`): one stored row (count, expireAt) with a
 * limit of 2500 calls per rolling 24-hour window. Time is a parameter in
 * milliseconds; the outcomes of the row read and of the two writes are
 * passed in.
 */
module DailyLimit {
  import opened Wrappers

  const Limit: int := 2500
  const Day: int := 24 * 60 * 60 * 1000

  /** The `daily_limit` row with id 1; an absent expiry is `None`. */
  datatype Row = Row(count: int, expireAt: Option<int>)

  /** `{ allowed: true }`, `{ allowed: false, retryAfter }`, or the read
      error the function rethrows. */
  datatype Decision = Allowed | Denied(retryAfter: int) | ReadFailed

  datatype QuotaStep = QuotaStep(row: Row, decision: Decision)

  /** `!data.expire_at || new Date(data.expire_at) < now` */
  predicate Expired(row: Row, now: int) {
    row.expireAt.None? || row.expireAt.value < now
  }

  /** The count the limit is checked against: 0 right after a reset. */
  function CountAt(row: Row, now: int): int {
    if Expired(row, now) then 0 else row.count
  }

  /** `Math.ceil(x / d)` for a positive divisor. */
  function CeilDiv(x: int, d: int): (q: int)
    requires d > 0
    ensures d * (q - 1) < x <= d * q
  {
    (x + d - 1) / d
  }

  /** Whether each of the two `update` calls reaches the table. Their
      `{ error }` results are never read, so a failed write changes nothing
      in the decision: only the stored row differs. */
  datatype Writes = Writes(resetLands: bool, incrementLands: bool)

  const AllLand: Writes := Writes(true, true)

  /** A denial whose `Retry-After` is the whole seconds left until `end`,
      rounded up. */
  predicate DeniedUntil(d: Decision, end: int, now: int) {
    && d.Denied?
    && 0 <= d.retryAfter
    && 1000 * (d.retryAfter - 1) < end - now <= 1000 * d.retryAfter
  }

  /** The expiry the decision is taken against: the fresh one after a
      reset, the stored one otherwise. */
  function WindowEnd(row: Row, now: int): int {
    if Expired(row, now) then now + Day else row.expireAt.value
  }

  /** One call. The decision is taken on the local copy of the row, reset
      (count 0, expiry 24 hours from now) when it had expired; the table
      receives the reset and the increment only when those writes land, and
      the increment writes the count alone. */
  function CheckAndUpdate(stored: Row, readOk: bool, w: Writes, now: int): (r: QuotaStep)
    ensures !readOk ==> r == QuotaStep(stored, ReadFailed)
    // the decision
    ensures r.decision == ReadFailed <==> !readOk
    ensures r.decision == Allowed <==> readOk && CountAt(stored, now) < Limit
    ensures readOk && CountAt(stored, now) >= Limit ==> DeniedUntil(r.decision, WindowEnd(stored, now), now)
    ensures r.decision.Denied? ==>
      && readOk && CountAt(stored, now) >= Limit
      && 0 <= r.decision.retryAfter
      && 1000 * (r.decision.retryAfter - 1) < WindowEnd(stored, now) - now <= 1000 * r.decision.retryAfter
    // the stored row
    ensures readOk && Expired(stored, now) && w.resetLands ==> r.row.expireAt == Some(now + Day)
    ensures !(readOk && Expired(stored, now) && w.resetLands) ==> r.row.expireAt == stored.expireAt
    ensures readOk && w.resetLands ==> r.row.expireAt.Some? && now <= r.row.expireAt.value
    ensures r.decision == Allowed && w.incrementLands ==> r.row.count == CountAt(stored, now) + 1
    ensures r.decision != Allowed || !w.incrementLands ==>
      r.row.count == (if readOk && Expired(stored, now) && w.resetLands then 0 else stored.count)
  {
    if !readOk then QuotaStep(stored, ReadFailed)
    else
      var view := if Expired(stored, now) then Row(0, Some(now + Day)) else stored;
      var table := if Expired(stored, now) && w.resetLands then view else stored;
      if view.count >= Limit then
        QuotaStep(table, Denied(CeilDiv(view.expireAt.value - now, 1000)))
      else
        QuotaStep(if w.incrementLands then table.(count := view.count + 1) else table, Allowed)
  }

  /** The answer does not depend on whether the writes land. */
  lemma DecisionIgnoresWrites(stored: Row, readOk: bool, w1: Writes, w2: Writes, now: int)
    ensures CheckAndUpdate(stored, readOk, w1, now).decision == CheckAndUpdate(stored, readOk, w2, now).decision
  {
  }

  /** A count within the limit stays within the limit. */
  lemma CountStaysWithinLimit(stored: Row, readOk: bool, w: Writes, now: int)
    requires stored.count <= Limit
    ensures CheckAndUpdate(stored, readOk, w, now).row.count <= Limit
  {
  }

  /** Successive calls at the given instants, every read succeeding and
      every write faring as `w` says. */
  function Run(row: Row, times: seq<int>, w: Writes): (d: seq<Decision>)
    ensures |d| == |times|
    decreases |times|
  {
    if |times| == 0 then []
    else
      var s := CheckAndUpdate(row, true, w, times[0]);
      [s.decision] + Run(s.row, times[1..], w)
  }

  /** Inside one window (no call after the expiry) the calls are allowed
      exactly while the count is below the limit. */
  lemma {:induction false} WithinWindow(row: Row, times: seq<int>)
    requires row.expireAt.Some?
    requires forall i :: 0 <= i < |times| ==> times[i] <= row.expireAt.value
    ensures forall i :: 0 <= i < |times| ==> (Run(row, times, AllLand)[i] == Allowed <==> row.count + i < Limit)
    ensures forall i :: 0 <= i < |times| && Limit <= row.count + i ==>
      DeniedUntil(Run(row, times, AllLand)[i], row.expireAt.value, times[i])
    decreases |times|
  {
    if |times| > 0 {
      var s := CheckAndUpdate(row, true, AllLand, times[0]);
      assert !Expired(row, times[0]);
      assert s.row.expireAt == row.expireAt;
      assert s.row.count == (if row.count < Limit then row.count + 1 else row.count);
      if row.count < Limit {
        WithinWindow(s.row, times[1..]);
      } else {
        WithinWindowSaturated(s.row, times[1..]);
      }
      var d := Run(row, times, AllLand);
      assert d == [s.decision] + Run(s.row, times[1..], AllLand);
      forall i | 0 <= i < |times|
        ensures d[i] == Allowed <==> row.count + i < Limit
        ensures Limit <= row.count + i ==> DeniedUntil(d[i], row.expireAt.value, times[i])
      {
        if i > 0 {
          assert d[i] == Run(s.row, times[1..], AllLand)[i - 1];
        }
      }
    }
  }

  /** Once the count reached the limit, every call in the window is denied. */
  lemma {:induction false} WithinWindowSaturated(row: Row, times: seq<int>)
    requires row.expireAt.Some? && Limit <= row.count
    requires forall i :: 0 <= i < |times| ==> times[i] <= row.expireAt.value
    ensures forall i :: 0 <= i < |times| ==> DeniedUntil(Run(row, times, AllLand)[i], row.expireAt.value, times[i])
    decreases |times|
  {
    if |times| > 0 {
      var s := CheckAndUpdate(row, true, AllLand, times[0]);
      assert s.row == row;
      WithinWindowSaturated(row, times[1..]);
      var d := Run(row, times, AllLand);
      assert d == [s.decision] + Run(row, times[1..], AllLand);
      forall i | 0 <= i < |times|
        ensures DeniedUntil(d[i], row.expireAt.value, times[i])
      {
        if i > 0 {
          assert d[i] == Run(row, times[1..], AllLand)[i - 1];
        }
      }
    }
  }

  /** A call on an expired row opens a new window; of it and the calls that
      follow inside the new window, exactly the first 2500 are allowed, and
      every later one is denied until the end of that window. */
  lemma FreshWindowAllowsExactlyLimit(stored: Row, t0: int, times: seq<int>)
    requires Expired(stored, t0)
    requires forall i :: 0 <= i < |times| ==> times[i] <= t0 + Day
    ensures forall i :: 0 <= i < |times| + 1 ==> (Run(stored, [t0] + times, AllLand)[i] == Allowed <==> i < Limit)
    ensures forall i :: Limit <= i < |times| + 1 ==>
      DeniedUntil(Run(stored, [t0] + times, AllLand)[i], t0 + Day, ([t0] + times)[i])
  {
    var s := CheckAndUpdate(stored, true, AllLand, t0);
    assert s.row == Row(1, Some(t0 + Day)) && s.decision == Allowed;
    WithinWindow(s.row, times);
    var d := Run(stored, [t0] + times, AllLand);
    assert ([t0] + times)[1..] == times;
    assert d == [Allowed] + Run(s.row, times, AllLand);
    forall i | 0 <= i < |times| + 1
      ensures d[i] == Allowed <==> i < Limit
      ensures Limit <= i ==> DeniedUntil(d[i], t0 + Day, ([t0] + times)[i])
    {
      if i > 0 {
        assert d[i] == Run(s.row, times, AllLand)[i - 1];
        assert ([t0] + times)[i] == times[i - 1];
      }
    }
  }

  /** The expiry only changes on a reset. */
  lemma ExpiryChangesOnlyOnReset(stored: Row, readOk: bool, w: Writes, now: int)
    requires CheckAndUpdate(stored, readOk, w, now).row.expireAt != stored.expireAt
    ensures readOk && Expired(stored, now) && w.resetLands
  {
  }

  /** When the increment never lands, a row below the limit stays as it
      is, so every call inside its window is allowed, however many there
      are: the quota is not enforced. */
  lemma {:induction false} LostIncrementsAllowAll(row: Row, times: seq<int>)
    requires row.count < Limit
    requires forall i :: 0 <= i < |times| ==> !Expired(row, times[i])
    ensures forall i :: 0 <= i < |times| ==> Run(row, times, Writes(true, false))[i] == Allowed
    decreases |times|
  {
    if |times| > 0 {
      var w := Writes(true, false);
      assert CheckAndUpdate(row, true, w, times[0]) == QuotaStep(row, Allowed);
      LostIncrementsAllowAll(row, times[1..]);
      var d := Run(row, times, w);
      assert d == [Allowed] + Run(row, times[1..], w);
      forall i | 0 <= i < |times|
        ensures d[i] == Allowed
      {
        if i > 0 {
          assert d[i] == Run(row, times[1..], w)[i - 1];
        }
      }
    }
  }

  /** When the reset never lands but the increments do, the stored expiry
      stays in the past, every call resets the local copy again, and every
      call is allowed. */
  lemma {:induction false} LostResetsAllowAll(row: Row, times: seq<int>)
    requires forall i :: 0 <= i < |times| ==> Expired(row, times[i])
    ensures forall i :: 0 <= i < |times| ==> Run(row, times, Writes(false, true))[i] == Allowed
    decreases |times|
  {
    if |times| > 0 {
      var w := Writes(false, true);
      var s := CheckAndUpdate(row, true, w, times[0]);
      assert s == QuotaStep(Row(1, row.expireAt), Allowed);
      LostResetsAllowAll(s.row, times[1..]);
      var d := Run(row, times, w);
      assert d == [Allowed] + Run(s.row, times[1..], w);
      forall i | 0 <= i < |times|
        ensures d[i] == Allowed
      {
        if i > 0 {
          assert d[i] == Run(s.row, times[1..], w)[i - 1];
        }
      }
    }
  }
}

=== FILE: decode_stream.dfy ===
/**
 * The client-side decoder of the streamed chat reply (`decodeStream`).
 *
 * The response body arrives as a sequence of already UTF-8-decoded chunks.
 * Each chunk is split on line feeds on its own (a line cut by a chunk
 * boundary is NOT reassembled), blank lines are dropped, and every line of
 * the form `data: <payload>` whose payload is not the `[DONE]` sentinel is
 * handed to the JSON parser. A non-empty `choices[0].delta.content` is
 * appended to the running content and the callback receives the running
 * content. The line syntax is the `data:` field of Server-Sent Events
 * (WHATWG HTML Living Standard, section 9.2), only the subset above.
 */
module StreamDecoder {
  import opened Wrappers
  import opened Text
  import opened Seqs

  /** What `JSON.parse` followed by `parsed.choices?.[0]?.delta?.content`
      yields for one payload: a thrown parse error, or the (possibly absent)
      delta content. */
  datatype Parsed = Parsed(token: Option<string>) | ParseError

  /** The parser is a parameter: JSON itself is not part of this model. */
  type Parser = string -> Parsed

  const DataPrefix: string := "data: "
  const DoneSentinel: string := "[DONE]"

  /** The loop state: the running assistant content and every argument the
      `updateLastMessage` callback has received so far, oldest first. */
  datatype Decoding = Decoding(content: string, updates: seq<string>)

  const Start: Decoding := Decoding("", [])

  /** The token one line contributes: only a `data: ` line whose trimmed
      payload is not `[DONE]`, parses, and carries a non-empty (truthy)
      delta content contributes anything. */
  function LineToken(line: string, parse: Parser): (r: Option<string>)
    ensures !StartsWith(line, DataPrefix) ==> r == None
    ensures StartsWith(line, DataPrefix) && Trim(line[|DataPrefix|..]) == DoneSentinel ==> r == None
    ensures r.Some? <==>
      && StartsWith(line, DataPrefix) && Trim(line[|DataPrefix|..]) != DoneSentinel
      && parse(Trim(line[|DataPrefix|..])).Parsed?
      && parse(Trim(line[|DataPrefix|..])).token.Some? && parse(Trim(line[|DataPrefix|..])).token.value != ""
    ensures r.Some? ==> r.value != "" && parse(Trim(line[|DataPrefix|..])) == Parsed(Some(r.value))
  {
    if !StartsWith(line, DataPrefix) then None
    else
      var payload := Trim(line[|DataPrefix|..]);
      if payload == DoneSentinel then None
      else
        match parse(payload)
        case ParseError => None
        case Parsed(None) => None
        case Parsed(Some(t)) => if t == "" then None else Some(t)
  }

  /** One iteration of the inner `for` loop. */
  function Step(d: Decoding, line: string, parse: Parser): Decoding
  {
    match LineToken(line, parse)
    case None => d
    case Some(t) => Decoding(d.content + t, d.updates + [d.content + t])
  }

  function DecodeLines(d: Decoding, lines: seq<string>, parse: Parser): Decoding
    decreases |lines|
  {
    if |lines| == 0 then d else DecodeLines(Step(d, lines[0], parse), lines[1..], parse)
  }

  predicate NotBlank(line: string) {
    !IsBlank(line)
  }

  /** `lines.filter((line) => line.trim() !== "")` */
  function NonBlank(lines: seq<string>): (r: seq<string>)
    ensures |r| <= |lines|
    ensures forall i :: 0 <= i < |r| ==> !IsBlank(r[i]) && r[i] in lines
    ensures forall i :: 0 <= i < |lines| && !IsBlank(lines[i]) ==> lines[i] in r
  {
    Filter(lines, NotBlank)
  }

  /** The lines of one chunk that reach the inner loop. */
  function ChunkLines(chunk: string): seq<string>
  {
    NonBlank(SplitLines(chunk))
  }

  function DecodeChunk(d: Decoding, chunk: string, parse: Parser): Decoding
  {
    DecodeLines(d, ChunkLines(chunk), parse)
  }

  /** The outer `while (true)` loop, one chunk per `reader.read()`. */
  function DecodeChunks(d: Decoding, chunks: seq<string>, parse: Parser): Decoding
    decreases |chunks|
  {
    if |chunks| == 0 then d else DecodeChunks(DecodeChunk(d, chunks[0], parse), chunks[1..], parse)
  }

  // ---------------------------------------------------------------------
  // Reference definitions: the accepted tokens and the running totals.

  /** The truthy delta tokens of the accepted lines, in order. */
  function LineTokens(lines: seq<string>, parse: Parser): seq<string>
    decreases |lines|
  {
    if |lines| == 0 then [] else TokenOf(lines[0], parse) + LineTokens(lines[1..], parse)
  }

  function TokenOf(line: string, parse: Parser): seq<string>
  {
    match LineToken(line, parse)
    case None => []
    case Some(t) => [t]
  }

  function StreamTokens(chunks: seq<string>, parse: Parser): seq<string>
    decreases |chunks|
  {
    if |chunks| == 0 then [] else LineTokens(ChunkLines(chunks[0]), parse) + StreamTokens(chunks[1..], parse)
  }

  function Concat(ts: seq<string>): string
    decreases |ts|
  {
    if |ts| == 0 then "" else ts[0] + Concat(ts[1..])
  }

  /** The callback arguments are running totals of the content: each one
      strictly extends the one before, each is a prefix of the content, the
      last one is the content, and there are none exactly when the content
      is empty. */
  predicate RunningTotals(updates: seq<string>, content: string) {
    && (forall i, j :: 0 <= i < j < |updates| ==> StartsWith(updates[j], updates[i]) && |updates[i]| < |updates[j]|)
    && (forall i :: 0 <= i < |updates| ==> StartsWith(content, updates[i]))
    && (|updates| > 0 ==> updates[|updates| - 1] == content)
    && (|updates| == 0 <==> content == "")
  }

  predicate Running(d: Decoding) {
    RunningTotals(d.updates, d.content)
  }

  /** The callback arguments a run of tokens produces from the content
      `base`: the content after each token, in order. */
  function Totals(base: string, ts: seq<string>): (r: seq<string>)
    ensures |r| == |ts|
    decreases |ts|
  {
    if |ts| == 0 then [] else [base + ts[0]] + Totals(base + ts[0], ts[1..])
  }

  // ---------------------------------------------------------------------
  // Lemmas

  lemma {:induction false} ConcatAppend(a: seq<string>, b: seq<string>)
    ensures Concat(a + b) == Concat(a) + Concat(b)
    decreases |a|
  {
    if |a| == 0 {
      assert a + b == b;
    } else {
      assert (a + b)[0] == a[0];
      assert (a + b)[1..] == a[1..] + b;
      ConcatAppend(a[1..], b);
      calc {
        Concat(a + b);
        a[0] + Concat(a[1..] + b);
        a[0] + (Concat(a[1..]) + Concat(b));
        (a[0] + Concat(a[1..])) + Concat(b);
      }
    }
  }

  lemma {:induction false} LineTokensAppend(a: seq<string>, b: seq<string>, parse: Parser)
    ensures LineTokens(a + b, parse) == LineTokens(a, parse) + LineTokens(b, parse)
    decreases |a|
  {
    if |a| == 0 {
      assert a + b == b;
    } else {
      assert (a + b)[0] == a[0];
      assert (a + b)[1..] == a[1..] + b;
      LineTokensAppend(a[1..], b, parse);
      var h := TokenOf(a[0], parse);
      assert LineTokens(a + b, parse) == h + LineTokens(a[1..] + b, parse);
      AppendAssoc(h, LineTokens(a[1..], parse), LineTokens(b, parse));
    }
  }

  /** Appending a non-empty token and its new running total keeps the
      running-total shape. */
  lemma RunningExtend(updates: seq<string>, content: string, t: string)
    requires RunningTotals(updates, content)
    requires t != ""
    ensures RunningTotals(updates + [content + t], content + t)
  {
    var c := content + t;
    var u := updates + [c];
    assert c[..|content|] == content;
    forall i | 0 <= i < |updates|
      ensures StartsWith(c, updates[i]) && |updates[i]| < |c|
    {
      assert c[..|updates[i]|] == content[..|updates[i]|];
    }
    assert forall i :: 0 <= i < |updates| ==> u[i] == updates[i];
  }

  lemma StepPreservesRunning(d: Decoding, line: string, parse: Parser)
    requires Running(d)
    ensures Running(Step(d, line, parse))
  {
    var tok := LineToken(line, parse);
    if tok.Some? {
      RunningExtend(d.updates, d.content, tok.value);
    }
  }

  /** Decoding a list of lines appends the concatenation of their tokens
      and calls back once per token. */
  lemma {:induction false} DecodeLinesContent(d: Decoding, lines: seq<string>, parse: Parser)
    ensures DecodeLines(d, lines, parse).content == d.content + Concat(LineTokens(lines, parse))
    ensures |DecodeLines(d, lines, parse).updates| == |d.updates| + |LineTokens(lines, parse)|
    decreases |lines|
  {
    if |lines| > 0 {
      var d1 := Step(d, lines[0], parse);
      DecodeLinesContent(d1, lines[1..], parse);
      var head := TokenOf(lines[0], parse);
      var tail := LineTokens(lines[1..], parse);
      ConcatAppend(head, tail);
      assert LineTokens(lines, parse) == head + tail;
      if head != [] {
        assert head[1..] == [];
        assert Concat(head) == head[0] + Concat([]);
      }
    }
  }

  lemma {:induction false} TotalsAppend(base: string, a: seq<string>, b: seq<string>)
    ensures Totals(base, a + b) == Totals(base, a) + Totals(base + Concat(a), b)
    decreases |a|
  {
    if |a| == 0 {
      assert a + b == b;
      assert base + Concat(a) == base;
    } else {
      assert (a + b)[0] == a[0];
      assert (a + b)[1..] == a[1..] + b;
      TotalsAppend(base + a[0], a[1..], b);
      AppendAssoc(base, a[0], Concat(a[1..]));
      AppendAssoc([base + a[0]], Totals(base + a[0], a[1..]), Totals(base + Concat(a), b));
    }
  }

  /** Each total is the base followed by the tokens up to and including
      its own. */
  lemma {:induction false} TotalsArePrefixConcats(base: string, ts: seq<string>)
    ensures forall i :: 0 <= i < |ts| ==> Totals(base, ts)[i] == base + Concat(ts[..i + 1])
    decreases |ts|
  {
    if |ts| > 0 {
      var r := Totals(base, ts);
      TotalsArePrefixConcats(base + ts[0], ts[1..]);
      forall i | 0 <= i < |ts|
        ensures r[i] == base + Concat(ts[..i + 1])
      {
        var p := ts[..i + 1];
        assert p[0] == ts[0] && p[1..] == ts[1..][..i];
        if i == 0 {
          assert p[1..] == [];
        } else {
          assert r[i] == Totals(base + ts[0], ts[1..])[i - 1];
          AppendAssoc(base, ts[0], Concat(p[1..]));
        }
      }
    }
  }

  /** Decoding a list of lines calls back with the totals of its tokens. */
  lemma {:induction false} DecodeLinesTotals(d: Decoding, lines: seq<string>, parse: Parser)
    ensures DecodeLines(d, lines, parse).updates == d.updates + Totals(d.content, LineTokens(lines, parse))
    decreases |lines|
  {
    if |lines| > 0 {
      var d1 := Step(d, lines[0], parse);
      var head := TokenOf(lines[0], parse);
      var tail := LineTokens(lines[1..], parse);
      DecodeLinesTotals(d1, lines[1..], parse);
      assert LineTokens(lines, parse) == head + tail;
      assert DecodeLines(d, lines, parse) == DecodeLines(d1, lines[1..], parse);
      StepTotals(d, lines[0], parse);
      TotalsAppend(d.content, head, tail);
      AppendAssoc(d.updates, Totals(d.content, head), Totals(d1.content, tail));
    }
  }

  /** One line calls back with the total of its token, if it has one. */
  lemma StepTotals(d: Decoding, line: string, parse: Parser)
    ensures Step(d, line, parse).content == d.content + Concat(TokenOf(line, parse))
    ensures Step(d, line, parse).updates == d.updates + Totals(d.content, TokenOf(line, parse))
  {
  }

  /** The same over chunks. */
  lemma {:induction false} DecodeChunksTotals(d: Decoding, chunks: seq<string>, parse: Parser)
    ensures DecodeChunks(d, chunks, parse).updates == d.updates + Totals(d.content, StreamTokens(chunks, parse))
    decreases |chunks|
  {
    if |chunks| > 0 {
      var lines := ChunkLines(chunks[0]);
      var d1 := DecodeChunk(d, chunks[0], parse);
      var toks := LineTokens(lines, parse);
      var rest := StreamTokens(chunks[1..], parse);
      DecodeLinesTotals(d, lines, parse);
      DecodeLinesContent(d, lines, parse);
      DecodeChunksTotals(d1, chunks[1..], parse);
      assert StreamTokens(chunks, parse) == toks + rest;
      assert DecodeChunks(d, chunks, parse) == DecodeChunks(d1, chunks[1..], parse);
      TotalsAppend(d.content, toks, rest);
      AppendAssoc(d.updates, Totals(d.content, toks), Totals(d1.content, rest));
    }
  }

  /** Decoding keeps the running-total shape. */
  lemma {:induction false} DecodeLinesRunning(d: Decoding, lines: seq<string>, parse: Parser)
    requires Running(d)
    ensures Running(DecodeLines(d, lines, parse))
    decreases |lines|
  {
    if |lines| > 0 {
      StepPreservesRunning(d, lines[0], parse);
      DecodeLinesRunning(Step(d, lines[0], parse), lines[1..], parse);
    }
  }

  lemma DecodeLinesMeaning(d: Decoding, lines: seq<string>, parse: Parser)
    ensures DecodeLines(d, lines, parse).content == d.content + Concat(LineTokens(lines, parse))
    ensures |DecodeLines(d, lines, parse).updates| == |d.updates| + |LineTokens(lines, parse)|
    ensures Running(d) ==> Running(DecodeLines(d, lines, parse))
  {
    DecodeLinesContent(d, lines, parse);
    if Running(d) {
      DecodeLinesRunning(d, lines, parse);
    }
  }

  /** Decoding two lists one after the other is decoding their concatenation. */
  lemma {:induction false} DecodeLinesAppend(d: Decoding, a: seq<string>, b: seq<string>, parse: Parser)
    ensures DecodeLines(d, a + b, parse) == DecodeLines(DecodeLines(d, a, parse), b, parse)
    decreases |a|
  {
    if |a| == 0 {
      assert a + b == b;
    } else {
      assert (a + b)[0] == a[0];
      assert (a + b)[1..] == a[1..] + b;
      DecodeLinesAppend(Step(d, a[0], parse), a[1..], b, parse);
    }
  }

  lemma {:induction false} DecodeChunksAppend(d: Decoding, a: seq<string>, b: seq<string>, parse: Parser)
    ensures DecodeChunks(d, a + b, parse) == DecodeChunks(DecodeChunks(d, a, parse), b, parse)
    decreases |a|
  {
    if |a| == 0 {
      assert a + b == b;
    } else {
      assert (a + b)[0] == a[0];
      assert (a + b)[1..] == a[1..] + b;
      DecodeChunksAppend(DecodeChunk(d, a[0], parse), a[1..], b, parse);
    }
  }

  /** The blank-line filter works line by line and keeps the order: with
      `NonBlankOne` this determines it on every list. */
  lemma NonBlankAppend(a: seq<string>, b: seq<string>)
    ensures NonBlank(a + b) == NonBlank(a) + NonBlank(b)
  {
    FilterAppend(a, b, NotBlank);
  }

  lemma NonBlankOne(line: string)
    ensures NonBlank([line]) == if IsBlank(line) then [] else [line]
  {
    assert [line][1..] == [];
  }

  lemma {:induction false} StreamTokensAppend(a: seq<string>, b: seq<string>, parse: Parser)
    ensures StreamTokens(a + b, parse) == StreamTokens(a, parse) + StreamTokens(b, parse)
    decreases |a|
  {
    if |a| == 0 {
      assert a + b == b;
    } else {
      assert (a + b)[0] == a[0];
      assert (a + b)[1..] == a[1..] + b;
      StreamTokensAppend(a[1..], b, parse);
      var h := LineTokens(ChunkLines(a[0]), parse);
      assert StreamTokens(a + b, parse) == h + StreamTokens(a[1..] + b, parse);
      AppendAssoc(h, StreamTokens(a[1..], parse), StreamTokens(b, parse));
    }
  }

  /** The whole stream: the final content is the in-order concatenation of
      every accepted token, there is one callback per token, and the
      callback arguments are the running totals ending in the final content. */
  lemma {:induction false} DecodeChunksContent(d: Decoding, chunks: seq<string>, parse: Parser)
    ensures DecodeChunks(d, chunks, parse).content == d.content + Concat(StreamTokens(chunks, parse))
    ensures |DecodeChunks(d, chunks, parse).updates| == |d.updates| + |StreamTokens(chunks, parse)|
    decreases |chunks|
  {
    if |chunks| > 0 {
      var lines := ChunkLines(chunks[0]);
      DecodeLinesContent(d, lines, parse);
      var d1 := DecodeChunk(d, chunks[0], parse);
      DecodeChunksContent(d1, chunks[1..], parse);
      var toks := LineTokens(lines, parse);
      var rest := StreamTokens(chunks[1..], parse);
      assert StreamTokens(chunks, parse) == toks + rest;
      assert DecodeChunks(d, chunks, parse) == DecodeChunks(d1, chunks[1..], parse);
      ConcatAppend(toks, rest);
      AppendAssoc(d.content, Concat(toks), Concat(rest));
    }
  }

  lemma {:induction false} DecodeChunksRunning(d: Decoding, chunks: seq<string>, parse: Parser)
    requires Running(d)
    ensures Running(DecodeChunks(d, chunks, parse))
    decreases |chunks|
  {
    if |chunks| > 0 {
      DecodeLinesRunning(d, ChunkLines(chunks[0]), parse);
      DecodeChunksRunning(DecodeChunk(d, chunks[0], parse), chunks[1..], parse);
    }
  }

  lemma DecodeChunksMeaning(d: Decoding, chunks: seq<string>, parse: Parser)
    ensures DecodeChunks(d, chunks, parse).content == d.content + Concat(StreamTokens(chunks, parse))
    ensures |DecodeChunks(d, chunks, parse).updates| == |d.updates| + |StreamTokens(chunks, parse)|
    ensures Running(d) ==> Running(DecodeChunks(d, chunks, parse))
  {
    DecodeChunksContent(d, chunks, parse);
    if Running(d) {
      DecodeChunksRunning(d, chunks, parse);
    }
  }

  /** A blank line never starts with `data: `, so the blank-line filter
      changes nothing the loop would have produced. */
  lemma {:induction false} BlankFilterIsRedundant(d: Decoding, lines: seq<string>, parse: Parser)
    ensures DecodeLines(d, NonBlank(lines), parse) == DecodeLines(d, lines, parse)
    decreases |lines|
  {
    if |lines| > 0 {
      var l := lines[0];
      NonBlankCons(lines);
      if IsBlank(l) {
        BlankLineIsIdle(d, l, parse);
        BlankFilterIsRedundant(d, lines[1..], parse);
      } else {
        DecodeLinesCons(d, l, NonBlank(lines[1..]), parse);
        BlankFilterIsRedundant(Step(d, l, parse), lines[1..], parse);
      }
    }
  }

  lemma NonBlankCons(lines: seq<string>)
    requires |lines| > 0
    ensures NonBlank(lines) == if IsBlank(lines[0]) then NonBlank(lines[1..]) else [lines[0]] + NonBlank(lines[1..])
  {
  }

  /** A blank line never starts with `data: `, so it leaves the decoder as it was. */
  lemma BlankLineIsIdle(d: Decoding, l: string, parse: Parser)
    requires IsBlank(l)
    ensures Step(d, l, parse) == d
  {
    assert AllSpace(l);
    assert |l| == 0 || l[0] != 'd';
  }

  lemma DecodeLinesCons(d: Decoding, l: string, rest: seq<string>, parse: Parser)
    ensures DecodeLines(d, [l] + rest, parse) == DecodeLines(Step(d, l, parse), rest, parse)
  {
    assert ([l] + rest)[1..] == rest;
  }

  /** Splitting a chunk exactly at one of its line breaks changes nothing. */
  lemma RechunkAtLineBreak(d: Decoding, a: string, b: string, parse: Parser)
    ensures DecodeChunks(d, [a + "\n" + b], parse) == DecodeChunks(d, [a, b], parse)
  {
    ChunkLinesAtBreak(a, b);
    DecodeLinesAppend(d, ChunkLines(a), ChunkLines(b), parse);
    OneChunk(d, a + "\n" + b, parse);
    TwoChunks(d, a, b, parse);
  }

  lemma OneChunk(d: Decoding, c: string, parse: Parser)
    ensures DecodeChunks(d, [c], parse) == DecodeChunk(d, c, parse)
  {
    assert [c][1..] == [];
  }

  lemma TwoChunks(d: Decoding, a: string, b: string, parse: Parser)
    ensures DecodeChunks(d, [a, b], parse) == DecodeChunk(DecodeChunk(d, a, parse), b, parse)
  {
    assert [a, b][1..] == [b];
    OneChunk(DecodeChunk(d, a, parse), b, parse);
  }

  lemma ChunkLinesAtBreak(a: string, b: string)
    ensures ChunkLines(a + "\n" + b) == ChunkLines(a) + ChunkLines(b)
  {
    SplitAtLineBreak(a, b);
    NonBlankAppend(SplitLines(a), SplitLines(b));
  }

  /** A line that contributes no token (blank, not a `data: ` line, the
      `[DONE]` sentinel, an unparseable payload, an absent or empty delta)
      can be removed from anywhere in a chunk without changing anything:
      in particular `[DONE]` does not stop the decoding of later lines. */
  lemma DroppedLineIsInert(d: Decoding, a: string, line: string, b: string, parse: Parser)
    requires '\n' !in line
    requires IsBlank(line) || LineToken(line, parse) == None
    ensures DecodeChunk(d, a + "\n" + line + "\n" + b, parse) == DecodeChunk(d, a + "\n" + b, parse)
  {
    SplitAround(a, line, b);
    SplitAtLineBreak(a, b);
    ChunkLinesAround(a, line, b);
    var na := ChunkLines(a);
    InertLine(DecodeLines(d, na, parse), line, parse);
    DecodeAround(d, na, NonBlank([line]), ChunkLines(b), parse);
  }

  lemma SplitAround(a: string, line: string, b: string)
    requires '\n' !in line
    ensures SplitLines(a + "\n" + line + "\n" + b) == SplitLines(a) + ([line] + SplitLines(b))
  {
    assert a + "\n" + line + "\n" + b == a + "\n" + (line + "\n" + b);
    SplitAtLineBreak(a, line + "\n" + b);
    SplitAtLineBreak(line, b);
    NoBreakSplit(line);
  }

  lemma DecodeAround(d: Decoding, x: seq<string>, m: seq<string>, y: seq<string>, parse: Parser)
    requires DecodeLines(DecodeLines(d, x, parse), m, parse) == DecodeLines(d, x, parse)
    ensures DecodeLines(d, x + (m + y), parse) == DecodeLines(d, x + y, parse)
  {
    var d1 := DecodeLines(d, x, parse);
    DecodeLinesAppend(d, x, m + y, parse);
    DecodeLinesAppend(d1, m, y, parse);
    DecodeLinesAppend(d, x, y, parse);
  }

  lemma ChunkLinesAround(a: string, line: string, b: string)
    requires SplitLines(a + "\n" + line + "\n" + b) == SplitLines(a) + ([line] + SplitLines(b))
    requires SplitLines(a + "\n" + b) == SplitLines(a) + SplitLines(b)
    ensures ChunkLines(a + "\n" + line + "\n" + b) == ChunkLines(a) + (NonBlank([line]) + ChunkLines(b))
    ensures ChunkLines(a + "\n" + b) == ChunkLines(a) + ChunkLines(b)
  {
    NonBlankAppend(SplitLines(a), [line] + SplitLines(b));
    NonBlankAppend([line], SplitLines(b));
    NonBlankAppend(SplitLines(a), SplitLines(b));
  }

  lemma InertLine(d: Decoding, line: string, parse: Parser)
    requires IsBlank(line) || LineToken(line, parse) == None
    ensures DecodeLines(d, NonBlank([line]), parse) == d
  {
    if !IsBlank(line) {
      assert NonBlank([line]) == [line];
      assert DecodeLines(d, [line], parse) == DecodeLines(Step(d, line, parse), [], parse);
    }
  }

  lemma {:induction false} NoBreakSplit(s: string)
    requires '\n' !in s
    ensures SplitLines(s) == [s]
    decreases |s|
  {
    if |s| > 0 {
      assert s[0] in s;
      assert forall c :: c in s[1..] ==> c in s;
      NoBreakSplit(s[1..]);
      assert [s[0]] + s[1..] == s;
    }
  }

  lemma OneDataLine(line: string, parse: Parser)
    requires '\n' !in line
    requires StartsWith(line, DataPrefix)
    ensures ChunkLines(line) == [line]
    ensures DecodeChunk(Start, line, parse) == Step(Start, line, parse)
  {
    NoBreakSplit(line);
    assert line[0] == DataPrefix[0];
    assert !IsSpace(line[0]);
    assert !AllSpace(line);
    assert !IsBlank(line);
    assert NonBlank([line]) == [line] + NonBlank([]);
    assert DecodeLines(Start, [line], parse) == DecodeLines(Step(Start, line, parse), [], parse);
  }

  lemma NonDataLine(line: string, parse: Parser)
    requires '\n' !in line
    requires |line| > 0 && line[0] != 'd'
    ensures DecodeChunk(Start, line, parse) == Start
  {
    NoBreakSplit(line);
    assert !StartsWith(line, DataPrefix);
    InertLine(Start, line, parse);
  }

  /** A parser that understands exactly one payload, `X`. */
  function AcceptX(payload: string): Parsed
  {
    if payload == "X" then Parsed(Some("X")) else ParseError
  }

  lemma DataXToken()
    ensures LineToken("data: X", AcceptX) == Some("X")
  {
    assert IsTrimmed("X") && |"X"| != |DoneSentinel|;
    PrefixedToken("X", AcceptX, "X");
    assert DataPrefix + "X" == "data: X";
  }

  /** A `data: ` line whose payload is trimmed and parses to a non-empty
      token contributes that token. */
  lemma PrefixedToken(payload: string, parse: Parser, t: string)
    requires IsTrimmed(payload) && payload != DoneSentinel
    requires parse(payload) == Parsed(Some(t)) && t != ""
    ensures LineToken(DataPrefix + payload, parse) == Some(t)
  {
    var line := DataPrefix + payload;
    assert line[..|DataPrefix|] == DataPrefix;
    assert line[|DataPrefix|..] == payload;
  }

  lemma WholeLineDecoded()
    ensures DecodeChunks(Start, ["data: X"], AcceptX).content == "X"
  {
    OneDataLine("data: X", AcceptX);
    DataXToken();
    assert DecodeChunks(Start, ["data: X"], AcceptX) == DecodeChunks(DecodeChunk(Start, "data: X", AcceptX), [], AcceptX);
  }

  lemma CutLineLost()
    ensures DecodeChunks(Start, ["da", "ta: X"], AcceptX).content == ""
  {
    assert "da"[0] == 'd' && "ta: X"[0] != 'd';
    InertChunks("da", "ta: X", AcceptX);
  }

  /** Two chunks without line breaks, neither of them a `data: ` line,
      contribute nothing. */
  lemma InertChunks(a: string, b: string, parse: Parser)
    requires '\n' !in a && 0 < |a| < |DataPrefix| && a[0] == 'd'
    requires '\n' !in b && |b| > 0 && b[0] != 'd'
    ensures DecodeChunks(Start, [a, b], parse).content == ""
  {
    NoBreakSplit(a);
    assert !StartsWith(a, DataPrefix);
    InertLine(Start, a, parse);
    NonDataLine(b, parse);
    TwoChunks(Start, a, b, parse);
  }

  /** A `data:` line cut by a chunk boundary is not reassembled: with a
      parser that accepts the payload `X`, the stream `["data: X"]` yields
      `"X"` while the same characters in two chunks yield nothing. */
  lemma LineCutByChunkBoundaryIsLost()
    ensures DecodeChunks(Start, ["data: X"], AcceptX).content == "X"
    ensures DecodeChunks(Start, ["da", "ta: X"], AcceptX).content == ""
  {
    WholeLineDecoded();
    CutLineLost();
  }

  /** The inner `for` loop over the non-blank lines of one chunk. */
  method DecodeChunkLoop(d0: Decoding, chunk: string, parse: Parser) returns (d: Decoding)
    ensures d == DecodeChunk(d0, chunk, parse)
  {
    var lines := ChunkLines(chunk);
    var content, updates := d0.content, d0.updates;
    var j := 0;
    while j < |lines|
      invariant 0 <= j <= |lines|
      invariant DecodeLines(Decoding(content, updates), lines[j..], parse) == DecodeChunk(d0, chunk, parse)
    {
      var line := lines[j];
      ghost var before := Decoding(content, updates);
      assert lines[j..][1..] == lines[j + 1..];
      assert DecodeLines(before, lines[j..], parse) == DecodeLines(Step(before, line, parse), lines[j + 1..], parse);
      j := j + 1;
      if !StartsWith(line, DataPrefix) {
        assert Step(before, line, parse) == before;
        continue;
      }
      var payload := Trim(line[|DataPrefix|..]);
      if payload == DoneSentinel {
        assert Step(before, line, parse) == before;
        continue;
      }
      match parse(payload)
      case ParseError =>
        assert Step(before, line, parse) == before;
      case Parsed(None) =>
        assert Step(before, line, parse) == before;
      case Parsed(Some(token)) =>
        if token != "" {
          content := content + token;
          updates := updates + [content];
        }
        assert Step(before, line, parse) == Decoding(content, updates);
    }
    assert lines[j..] == [];
    d := Decoding(content, updates);
  }

  /** From the empty state, the decoded stream is the concatenation of its
      tokens, and callback `i` receives the concatenation of the first
      `i + 1` tokens. */
  lemma StreamMeaning(chunks: seq<string>, parse: Parser)
    ensures DecodeChunks(Start, chunks, parse).content == Concat(StreamTokens(chunks, parse))
    ensures |DecodeChunks(Start, chunks, parse).updates| == |StreamTokens(chunks, parse)|
    ensures forall i :: 0 <= i < |DecodeChunks(Start, chunks, parse).updates| ==>
      DecodeChunks(Start, chunks, parse).updates[i] == Concat(StreamTokens(chunks, parse)[..i + 1])
    ensures Running(DecodeChunks(Start, chunks, parse))
  {
    var ts := StreamTokens(chunks, parse);
    DecodeChunksMeaning(Start, chunks, parse);
    assert Running(Start);
    DecodeChunksTotals(Start, chunks, parse);
    TotalsArePrefixConcats("", ts);
    assert DecodeChunks(Start, chunks, parse).updates == Totals("", ts);
    forall i | 0 <= i < |ts|
      ensures Totals("", ts)[i] == Concat(ts[..i + 1])
    {
      assert "" + Concat(ts[..i + 1]) == Concat(ts[..i + 1]);
    }
  }

  /** The decoding loop as the source writes it: read chunks until the
      stream is exhausted, then return the running content. */
  method DecodeStream(chunks: seq<string>, parse: Parser) returns (content: string, updates: seq<string>)
    ensures Decoding(content, updates) == DecodeChunks(Start, chunks, parse)
    ensures content == Concat(StreamTokens(chunks, parse))
    ensures |updates| == |StreamTokens(chunks, parse)|
    ensures forall i :: 0 <= i < |updates| ==> updates[i] == Concat(StreamTokens(chunks, parse)[..i + 1])
    ensures RunningTotals(updates, content)
  {
    var d := Start;
    var i := 0;
    while i < |chunks|
      invariant 0 <= i <= |chunks|
      invariant DecodeChunks(d, chunks[i..], parse) == DecodeChunks(Start, chunks, parse)
    {
      assert chunks[i..][1..] == chunks[i + 1..];
      d := DecodeChunkLoop(d, chunks[i], parse);
      i := i + 1;
    }
    assert chunks[i..] == [];
    content, updates := d.content, d.updates;
    StreamMeaning(chunks, parse);
  }
}

=== FILE: http.dfy ===
/**
 * The HTTP vocabulary shared by the route handlers and the client helpers:
 * replies a handler returns, outcomes of a `fetch` the client performs, and
 * the session check every authenticated route starts with.
 */
module Http {
  import opened Wrappers

  /** The `error` text of a JSON error reply. The daily-limit text embeds a
      floating-point hour count, so only the number of seconds it is derived
      from is kept. */
  datatype ErrorText = Text(text: string) | DailyLimitText(retryAfterSeconds: int)

  /** What a route handler answers. `D` is the type of a success payload. */
  datatype Reply<D> =
    | ErrorReply(status: int, error: ErrorText, retryAfterHeader: Option<string>)
    | EventStream(body: D)        // `new Response(body, { "Content-Type": "text/event-stream" })`
    | JsonReply(status: int, data: D)
    | Uncaught                    // an exception escaped the handler

  const TooManyRequests: string := "Too many requests... Please wait a minute \U{1F64F}"
  const Unauthorized: string := "Unauthorized"
  const InternalServerError: string := "Internal Server Error"
  const ApiKeyNotConfigured: string := "API key not configured"

  /** `response.ok` */
  predicate IsOk(status: int) {
    200 <= status <= 299
  }

  /** JavaScript truthiness of an optional string: present and non-empty. */
  predicate Truthy(s: Option<string>) {
    s.Some? && s.value != ""
  }

  /** The signed-in user id a route sees, or `None` when
      `!session || !session.user?.id` holds. */
  function SessionUserId(session: Option<string>): (id: Option<string>)
    ensures id.Some? <==> Truthy(session)
    ensures id.Some? ==> id == session
  {
    if Truthy(session) then session else None
  }
}

=== FILE: messages_api.dfy ===
/**
 * The `/api/messages` route handlers over an abstract `messages` table.
 * The table is a sequence of rows in insertion order, which is
 * `created_at` order; the session, the query string, the request body and
 * the database's error answer are parameters.
 */
module MessagesApi {
  import opened Wrappers
  import opened Http
  import opened Seqs

  const MissingConversationId: string := "Missing or invalid conversation_id"
  const MissingRole: string := "Invalid or missing role"
  const MissingContent: string := "Invalid or missing content"

  /** A stored message. */
  datatype MessageRow = MessageRow(id: string, conversationId: string, role: string, content: string)

  /** A field of a parsed JSON body: absent, a string, or some other value. */
  datatype JsonField = Missing | Str(text: string) | NonString

  /** `!x || typeof x !== "string"` fails exactly for a non-empty string. */
  predicate Valid(f: JsonField) {
    f.Str? && f.text != ""
  }

  /** The three fields `POST` destructures from the body. */
  datatype MessageBody = MessageBody(conversationId: JsonField, role: JsonField, content: JsonField)

  /** A handler's reply together with the table it leaves behind. */
  datatype Handled<D> = Handled(reply: Reply<D>, table: seq<MessageRow>)

  function BadRequest<D>(error: string): Reply<D> {
    ErrorReply(400, Text(error), None)
  }

  function ServerError<D>(error: string): Reply<D> {
    ErrorReply(500, Text(error), None)
  }

  function NotSignedIn<D>(): Reply<D> {
    ErrorReply(401, Text(Unauthorized), None)
  }

  /** The messages of one conversation, oldest first, whoever owns it. */
  function InConversation(table: seq<MessageRow>, conversationId: string): (r: seq<MessageRow>)
    ensures forall i :: 0 <= i < |r| ==> r[i].conversationId == conversationId && r[i] in table
    ensures forall i :: 0 <= i < |table| && table[i].conversationId == conversationId ==> table[i] in r
  {
    Filter(table, (m: MessageRow) => m.conversationId == conversationId)
  }

  /** The selection works row by row in table order, so the listing keeps
      `created_at` order; and every row of the conversation appears as
      often as it is stored. */
  lemma InConversationKeepsOrder(a: seq<MessageRow>, b: seq<MessageRow>, m: MessageRow, conversationId: string)
    ensures InConversation(a + b, conversationId) == InConversation(a, conversationId) + InConversation(b, conversationId)
    ensures InConversation([m], conversationId) == if m.conversationId == conversationId then [m] else []
    ensures multiset(InConversation(a, conversationId))[m] ==
      if m.conversationId == conversationId then multiset(a)[m] else 0
  {
    var p := (r: MessageRow) => r.conversationId == conversationId;
    FilterAppend(a, b, p);
    FilterCount(a, p, m);
    assert [m][1..] == [];
  }

  /** `GET /api/messages?conversation_id=…`; `dbError` is the error the
      select reports, if any. */
  function Get(session: Option<string>, query: Option<string>, table: seq<MessageRow>,
               dbError: Option<string>): (r: Reply<seq<MessageRow>>)
    ensures !Truthy(session) ==> r == NotSignedIn()
    ensures Truthy(session) && !Truthy(query) ==> r == BadRequest(MissingConversationId)
    ensures Truthy(session) && Truthy(query) && dbError.Some? ==> r == ServerError(dbError.value)
    ensures r.JsonReply? <==> Truthy(session) && Truthy(query) && dbError.None?
    ensures r.JsonReply? ==> r.status == 200 && r.data == InConversation(table, query.value)
  {
    if SessionUserId(session).None? then NotSignedIn()
    else if !Truthy(query) then BadRequest(MissingConversationId)
    else if dbError.Some? then ServerError(dbError.value)
    else JsonReply(200, InConversation(table, query.value))
  }

  /** The messages a signed-in caller reads do not depend on who the
      caller is: the select is not scoped to the owner. */
  lemma GetIgnoresCaller(a: string, b: string, query: Option<string>, table: seq<MessageRow>, dbError: Option<string>)
    requires a != "" && b != ""
    ensures Get(Some(a), query, table, dbError) == Get(Some(b), query, table, dbError)
  {
  }

  /** `POST /api/messages`. `body` is `None` when `req.json()` throws;
      `dbError` is the error the insert reports, if any. */
  function Post(session: Option<string>, body: Option<MessageBody>, table: seq<MessageRow>,
                freshId: string, dbError: Option<string>): (r: Handled<MessageRow>)
    ensures !Truthy(session) ==> r == Handled(NotSignedIn(), table)
    ensures Truthy(session) && body.None? ==> r == Handled(Uncaught, table)
    ensures Truthy(session) && body.Some? ==>
      var b := body.value;
      && (!Valid(b.conversationId) ==> r == Handled(BadRequest(MissingConversationId), table))
      && (Valid(b.conversationId) && !Valid(b.role) ==> r == Handled(BadRequest(MissingRole), table))
      && (Valid(b.conversationId) && Valid(b.role) && !Valid(b.content) ==>
            r == Handled(BadRequest(MissingContent), table))
    // a valid body is stored unless the insert reports an error
    ensures (Truthy(session) && body.Some? && Valid(body.value.conversationId) && Valid(body.value.role)
             && Valid(body.value.content) && dbError.Some?) ==> r == Handled(ServerError(dbError.value), table)
    ensures r.reply.JsonReply? <==>
      && Truthy(session) && body.Some? && dbError.None?
      && Valid(body.value.conversationId) && Valid(body.value.role) && Valid(body.value.content)
    ensures r.table != table ==> r.reply.JsonReply?
    ensures r.reply.JsonReply? ==>
      && Truthy(session) && body.Some? && dbError.None?
      && Valid(body.value.conversationId) && Valid(body.value.role) && Valid(body.value.content)
      && r.reply.status == 201
      && r.reply.data == MessageRow(freshId, body.value.conversationId.text, body.value.role.text, body.value.content.text)
      && r.table == table + [r.reply.data]
  {
    if SessionUserId(session).None? then Handled(NotSignedIn(), table)
    else match body
      case None => Handled(Uncaught, table)
      case Some(b) =>
        if !Valid(b.conversationId) then Handled(BadRequest(MissingConversationId), table)
        else if !Valid(b.role) then Handled(BadRequest(MissingRole), table)
        else if !Valid(b.content) then Handled(BadRequest(MissingContent), table)
        else if dbError.Some? then Handled(ServerError(dbError.value), table)
        else
          var row := MessageRow(freshId, b.conversationId.text, b.role.text, b.content.text);
          Handled(JsonReply(201, row), table + [row])
  }

  /** A stored message shows up last in its conversation's listing, and
      the listings of all other conversations are unchanged. */
  lemma PostThenGet(session: Option<string>, b: MessageBody, table: seq<MessageRow>, freshId: string, other: string)
    requires Truthy(session)
    requires Valid(b.conversationId) && Valid(b.role) && Valid(b.content)
    ensures var r := Post(session, Some(b), table, freshId, None);
      && InConversation(r.table, b.conversationId.text) == InConversation(table, b.conversationId.text) + [r.reply.data]
      && (other != b.conversationId.text ==> InConversation(r.table, other) == InConversation(table, other))
  {
    var r := Post(session, Some(b), table, freshId, None);
    FilterAppend(table, [r.reply.data], (m: MessageRow) => m.conversationId == b.conversationId.text);
    FilterAppend(table, [r.reply.data], (m: MessageRow) => m.conversationId == other);
  }
}

=== FILE: messages_utils.dfy ===
/**
 * The client helpers for stored messages: `postMessages` saves a turn as
 * two writes, `fetchMessages` opens a conversation. Each `fetch` outcome
 * is a parameter; the state setters the helpers receive become fields of
 * the record they return.
 */
module MessagesUtils {
  import opened Wrappers
  import opened Http
  import opened ConversationsContext

  const SaveFailed: string := "Error saving messages to db."

  /** A `fetch` that threw, or one that produced a response (its status
      is never looked at by `postMessages`). */
  datatype Sent = SendThrew | Delivered(status: int)

  /** The JSON body of one `POST /api/messages`. */
  datatype MessageWrite = MessageWrite(conversationId: string, role: string, content: string)

  /** The requests issued, in order, and the error rethrown, if any. */
  datatype PostTrace = PostTrace(writes: seq<MessageWrite>, thrown: Option<string>)

  /** `postMessages(conversationId, userContent, assistantContent)` given
      what each of the two `fetch` calls does; the second one happens
      only when the first did not throw. */
  function PostMessages(conversationId: string, userContent: string, assistantContent: string,
                        first: Sent, second: Sent): (r: PostTrace)
    ensures 1 <= |r.writes| <= 2
    ensures r.writes[0] == MessageWrite(conversationId, "user", userContent)
    ensures |r.writes| == 2 <==> first.Delivered?
    ensures |r.writes| == 2 ==> r.writes[1] == MessageWrite(conversationId, "assistant", assistantContent)
    ensures r.thrown.Some? <==> first.SendThrew? || second.SendThrew?
    ensures r.thrown.Some? ==> r.thrown.value == SaveFailed
  {
    var userWrite := MessageWrite(conversationId, "user", userContent);
    var assistantWrite := MessageWrite(conversationId, "assistant", assistantContent);
    match first
    case SendThrew => PostTrace([userWrite], Some(SaveFailed))
    case Delivered(_) =>
      match second
      case SendThrew => PostTrace([userWrite, assistantWrite], Some(SaveFailed))
      case Delivered(_) => PostTrace([userWrite, assistantWrite], None)
  }

  /** The first write's status is never checked: an error status on it
      leads to exactly what a success does. */
  lemma FirstStatusIsIgnored(conversationId: string, userContent: string, assistantContent: string,
                             status1: int, status2: int, second: Sent)
    ensures PostMessages(conversationId, userContent, assistantContent, Delivered(status1), second)
         == PostMessages(conversationId, userContent, assistantContent, Delivered(status2), second)
  {
  }

  /** The state `fetchMessages` can touch through the setters it is given. */
  datatype MessagesView = MessagesView(messages: seq<Message>, conversationId: string, error: Option<string>,
                                       showMenu: bool, loading: bool)

  /** What `GET /api/messages` produced: a thrown `fetch`, or a response
      whose JSON body is read (`None` when that read throws). */
  datatype MessagesResponse = FetchThrew | Responded(status: int, json: Option<seq<Message>>)

  /** `fetchMessages(conversation_id, …)`; `narrow` is
      `window.innerWidth < 768`. */
  function FetchMessages(v: MessagesView, id: string, narrow: bool, resp: MessagesResponse): (r: MessagesView)
    ensures narrow ==> !r.showMenu
    ensures !narrow ==> r.showMenu == v.showMenu
    ensures resp.Responded? && resp.status == 429 ==>
      r == v.(showMenu := r.showMenu, error := Some(TooManyRequests))
    ensures resp.Responded? && IsOk(resp.status) && resp.json.Some? ==>
      r == v.(showMenu := r.showMenu, messages := resp.json.value, conversationId := id, loading := false)
    // Every other outcome is caught and logged: nothing but the menu changes.
    ensures (resp.FetchThrew? || (resp.status != 429 && (!IsOk(resp.status) || resp.json.None?))) ==>
      r == v.(showMenu := r.showMenu)
  {
    var v1 := if narrow then v.(showMenu := false) else v;
    match resp
    case FetchThrew => v1
    case Responded(status, json) =>
      if status == 429 then v1.(error := Some(TooManyRequests))
      else if !IsOk(status) then v1
      else match json
        case None => v1
        case Some(data) => v1.(messages := data, conversationId := id, loading := false)
  }

  /** Only a successful fetch replaces the transcript or the open id, and
      none clears an earlier error. */
  lemma OnlySuccessOpens(v: MessagesView, id: string, narrow: bool, resp: MessagesResponse)
    ensures var r := FetchMessages(v, id, narrow, resp);
      (r.messages != v.messages || r.conversationId != v.conversationId) ==>
        resp.Responded? && IsOk(resp.status) && resp.json.Some?
    ensures FetchMessages(v, id, narrow, resp).error.None? ==> v.error.None?
  {
  }

  /** Opening the same conversation again with the same answer changes
      nothing more. */
  lemma FetchAgainIsStable(v: MessagesView, id: string, narrow: bool, resp: MessagesResponse)
    ensures var r := FetchMessages(v, id, narrow, resp);
      FetchMessages(r, id, narrow, resp) == r
  {
  }
}

=== FILE: middleware.dfy ===
/**
 * The global middleware (`middleware`): static and internal paths bypass
 * it; every other matched request is counted against the global buckets
 * with a limit of 25 per minute.
 */
module Middleware {
  import opened Text
  import opened Http
  import opened RateLimit

  const GlobalLimit: int := 25

  datatype Outcome = Continue | Limited(reply: Reply<()>)

  /** `config.matcher = ["/api/:path*"]` */
  predicate Matched(path: string) {
    path == "/api" || StartsWith(path, "/api/")
  }

  predicate Bypassed(path: string) {
    StartsWith(path, "/_next") || path == "/favicon.ico"
  }

  datatype Step = Step(global: Buckets, outcome: Outcome)

  /** The `middleware` function body. */
  function Middleware(path: string, h: Headers, now: int, global: Buckets): (r: Step)
    ensures Bypassed(path) ==> r == Step(global, Continue)
    ensures !Bypassed(path) ==> r.global == RateLimiter(global, GetIP(h), now, GlobalLimit).buckets
    ensures r.outcome == Continue <==> Bypassed(path) || LiveCount(global, GetIP(h), now) < GlobalLimit
    ensures r.outcome.Limited? ==> r.outcome.reply == RejectionReply
  {
    if Bypassed(path) then Step(global, Continue)
    else
      var l := RateLimiter(global, GetIP(h), now, GlobalLimit);
      if l.verdict == Rejected then Step(l.buckets, Limited(RejectionReply))
      else Step(l.buckets, Continue)
  }

  /** A request as the framework routes it: only matched paths run the
      middleware at all. */
  function HandleRequest(path: string, h: Headers, now: int, global: Buckets): (r: Step)
    ensures !Matched(path) ==> r == Step(global, Continue)
  {
    if Matched(path) then Middleware(path, h, now, global) else Step(global, Continue)
  }

  /** Under the matcher the bypass branch is unreachable: no `/api` path
      starts with `/_next` or is `/favicon.ico`. */
  lemma MatchedPathsAreCounted(path: string, h: Headers, now: int, global: Buckets)
    requires Matched(path)
    ensures !Bypassed(path)
    ensures HandleRequest(path, h, now, global).global == RateLimiter(global, GetIP(h), now, GlobalLimit).buckets
  {
    assert path[1] == 'a';
    assert "/_next"[1] == '_';
    assert "/favicon.ico"[1] == 'f';
  }

  /** `n` successive `/api/` requests from one client at one instant. */
  function Requests(path: string, h: Headers, now: int, global: Buckets, n: nat): (o: seq<Outcome>)
    ensures |o| == n
    decreases n
  {
    if n == 0 then []
    else
      var r := HandleRequest(path, h, now, global);
      [r.outcome] + Requests(path, h, now, r.global, n - 1)
  }

  /** One matched request does exactly what one limiter call does. */
  lemma OneRequest(path: string, h: Headers, now: int, global: Buckets)
    requires Matched(path)
    ensures var r := HandleRequest(path, h, now, global);
      var l := RateLimiter(global, GetIP(h), now, GlobalLimit);
      r.global == l.buckets && (r.outcome == Continue <==> l.verdict == Admitted)
  {
    MatchedPathsAreCounted(path, h, now, global);
  }

  /** The limiter verdict an outcome reports. */
  function AsVerdict(o: Outcome): Verdict {
    if o == Continue then Admitted else Rejected
  }

  function AsVerdicts(os: seq<Outcome>): (v: seq<Verdict>)
    ensures |v| == |os|
    ensures forall i :: 0 <= i < |os| ==> v[i] == AsVerdict(os[i])
    decreases |os|
  {
    if |os| == 0 then [] else [AsVerdict(os[0])] + AsVerdicts(os[1..])
  }

  /** A run of matched requests is a run of global-limiter calls. */
  lemma {:induction false} RequestsAreBurst(path: string, h: Headers, now: int, global: Buckets, n: nat)
    requires Matched(path)
    ensures AsVerdicts(Requests(path, h, now, global, n)) == Burst(global, GetIP(h), now, GlobalLimit, n)
    decreases n, 1
  {
    if n > 0 {
      RequestsStep(path, h, now, global, n);
    } else {
      assert Burst(global, GetIP(h), now, GlobalLimit, n) == [];
    }
  }

  /** The inductive step: one request in front of a run that agrees with
      the limiter keeps the agreement. */
  lemma {:induction false} RequestsStep(path: string, h: Headers, now: int, global: Buckets, n: nat)
    requires Matched(path) && n > 0
    ensures AsVerdicts(Requests(path, h, now, global, n)) == Burst(global, GetIP(h), now, GlobalLimit, n)
    decreases n, 0
  {
    var r := HandleRequest(path, h, now, global);
    RequestsAreBurst(path, h, now, r.global, n - 1);
    RequestsUnfold(path, h, now, global, n);
    BurstUnfold(global, GetIP(h), now, GlobalLimit, n);
    OneRequest(path, h, now, global);
    AsVerdictsCons(r.outcome, Requests(path, h, now, r.global, n - 1));
  }

  lemma RequestsUnfold(path: string, h: Headers, now: int, global: Buckets, n: nat)
    requires n > 0
    ensures var r := HandleRequest(path, h, now, global);
      Requests(path, h, now, global, n) == [r.outcome] + Requests(path, h, now, r.global, n - 1)
  {
  }

  lemma AsVerdictsCons(o: Outcome, os: seq<Outcome>)
    ensures AsVerdicts([o] + os) == [AsVerdict(o)] + AsVerdicts(os)
  {
    assert ([o] + os)[1..] == os;
  }

  /** A client with no bucket gets 25 requests through in one window and
      the 26th is limited. */
  lemma TwentySixthRequestLimited(path: string, h: Headers, now: int, global: Buckets)
    requires Matched(path)
    requires GetIP(h) !in global
    ensures forall i :: 0 <= i < 26 ==> (Requests(path, h, now, global, 26)[i] == Continue <==> i < 25)
  {
    RequestsAreBurst(path, h, now, global, 26);
    FirstLimitCallsAdmitted(global, GetIP(h), now, GlobalLimit, 26);
    var o := Requests(path, h, now, global, 26);
    var b := Burst(global, GetIP(h), now, GlobalLimit, 26);
    forall i | 0 <= i < 26
      ensures o[i] == Continue <==> i < 25
    {
      assert AsVerdicts(o)[i] == b[i];
    }
  }
}

=== FILE: rate_limit.dfy ===
/**
 * The in-memory fixed-window rate limiter (`rateLimiter`, `getIP` and the
 * minute-by-minute sweep). A bucket map goes from client key to
 * (count, reset); `now` is a parameter in milliseconds. A rejection is an
 * HTTP 429 (RFC 6585, section 4).
 */
module RateLimit {
  import opened Wrappers
  import opened Text
  import opened Http

  const Window: int := 60_000

  datatype Bucket = Bucket(count: int, reset: int)

  type Buckets = map<string, Bucket>

  /** The two process-wide maps: every `/api/` request, and the model routes. */
  datatype Limiters = Limiters(global: Buckets, ai: Buckets)

  /** The three request headers `getIP` reads (`headers.get`, null as None). */
  datatype Headers = Headers(cfConnectingIp: Option<string>, xRealIp: Option<string>, xForwardedFor: Option<string>)

  datatype Verdict = Admitted | Rejected

  /** The reply a rejection produces. */
  const RejectionReply: Reply<()> := ErrorReply(429, Text(TooManyRequests), None)

  /** `s.split(",")[0]`: everything before the first comma. */
  function FirstField(s: string): (r: string)
    ensures StartsWith(s, r)
    ensures ',' !in r
    ensures |r| < |s| ==> s[|r|] == ','
    decreases |s|
  {
    if |s| == 0 || s[0] == ',' then "" else [s[0]] + FirstField(s[1..])
  }

  /** The client key: the first truthy of `cf-connecting-ip`, `x-real-ip`
      and the first comma field of `x-forwarded-for`, else `"unknown"`;
      then trimmed. */
  function GetIP(h: Headers): (ip: string)
    ensures IsTrimmed(ip)
    ensures Truthy(h.cfConnectingIp) ==> ip == Trim(h.cfConnectingIp.value)
    ensures !Truthy(h.cfConnectingIp) && Truthy(h.xRealIp) ==> ip == Trim(h.xRealIp.value)
    ensures !Truthy(h.cfConnectingIp) && !Truthy(h.xRealIp) ==> ',' !in ip
    ensures !Truthy(h.cfConnectingIp) && !Truthy(h.xRealIp) && h.xForwardedFor.Some? && FirstField(h.xForwardedFor.value) != "" ==>
      ip == Trim(FirstField(h.xForwardedFor.value))
    ensures !Truthy(h.cfConnectingIp) && !Truthy(h.xRealIp) && (h.xForwardedFor.None? || FirstField(h.xForwardedFor.value) == "") ==>
      ip == "unknown"
  {
    var forwarded := if h.xForwardedFor.Some? then FirstField(h.xForwardedFor.value) else "";
    var raw :=
      if Truthy(h.cfConnectingIp) then h.cfConnectingIp.value
      else if Truthy(h.xRealIp) then h.xRealIp.value
      else if forwarded != "" then forwarded
      else "unknown";
    assert raw == "unknown" ==> IsTrimmed(raw);
    assert ',' !in raw ==> ',' !in Trim(raw) by {
      if ',' !in raw {
        TrimKeepsOut(raw, ',');
      }
    }
    Trim(raw)
  }

  /** The count a key's bucket holds for a request at `now`: its stored
      count while the window is open, 0 when absent or expired. */
  function LiveCount(m: Buckets, ip: string, now: int): int
  {
    if ip in m && now <= m[ip].reset then m[ip].count else 0
  }

  /** The reset time the key's bucket has after a request at `now`. */
  function LiveReset(m: Buckets, ip: string, now: int): int
  {
    if ip in m && now <= m[ip].reset then m[ip].reset else now + Window
  }

  datatype LimitResult = LimitResult(buckets: Buckets, verdict: Verdict)

  /** One call of `rateLimiter`. An existing bucket is mutated in place, so
      its count grows even on rejection; a new bucket is stored only when
      the call is admitted. */
  function RateLimiter(m: Buckets, ip: string, now: int, limit: int): (r: LimitResult)
    ensures r.buckets - {ip} == m - {ip}
    ensures ip in r.buckets <==> ip in m || r.verdict == Admitted
    ensures ip in r.buckets ==> r.buckets[ip] == Bucket(LiveCount(m, ip, now) + 1, LiveReset(m, ip, now))
    ensures r.verdict == Admitted <==> LiveCount(m, ip, now) + 1 <= limit
  {
    var b0 := if ip in m then m[ip] else Bucket(0, now + Window);
    var b1 := if now > b0.reset then Bucket(0, now + Window) else b0;
    var b := b1.(count := b1.count + 1);
    if b.count > limit then
      LimitResult(if ip in m then m[ip := b] else m, Rejected)
    else
      LimitResult(m[ip := b], Admitted)
  }

  /** `n` successive calls for the same key at the same instant. */
  function Burst(m: Buckets, ip: string, now: int, limit: int, n: nat): (v: seq<Verdict>)
    ensures |v| == n
    decreases n
  {
    if n == 0 then []
    else
      var r := RateLimiter(m, ip, now, limit);
      [r.verdict] + Burst(r.buckets, ip, now, limit, n - 1)
  }

  lemma BurstUnfold(m: Buckets, ip: string, now: int, limit: int, n: nat)
    requires n > 0
    ensures var r := RateLimiter(m, ip, now, limit);
      Burst(m, ip, now, limit, n) == [r.verdict] + Burst(r.buckets, ip, now, limit, n - 1)
  {
  }

  lemma {:induction false} BurstFrom(m: Buckets, ip: string, now: int, limit: int, n: nat, c: int)
    requires 1 <= limit
    requires (ip !in m && c == 0) || (ip in m && m[ip].count == c && now <= m[ip].reset && c >= 0)
    ensures |Burst(m, ip, now, limit, n)| == n
    ensures forall i :: 0 <= i < n ==> (Burst(m, ip, now, limit, n)[i] == Admitted <==> c + i + 1 <= limit)
    decreases n
  {
    if n > 0 {
      var r := RateLimiter(m, ip, now, limit);
      assert LiveCount(m, ip, now) == c;
      BurstFrom(r.buckets, ip, now, limit, n - 1, c + 1);
      var v := Burst(m, ip, now, limit, n);
      assert v == [r.verdict] + Burst(r.buckets, ip, now, limit, n - 1);
      forall i | 0 <= i < n
        ensures v[i] == Admitted <==> c + i + 1 <= limit
      {
        if i > 0 {
          assert v[i] == Burst(r.buckets, ip, now, limit, n - 1)[i - 1];
        }
      }
    }
  }

  /** From an absent bucket with limit N >= 1 and a constant clock, calls
      1..N are admitted and every later call is rejected. */
  lemma FirstLimitCallsAdmitted(m: Buckets, ip: string, now: int, limit: int, n: nat)
    requires 1 <= limit
    requires ip !in m
    ensures |Burst(m, ip, now, limit, n)| == n
    ensures forall i :: 0 <= i < n ==> (Burst(m, ip, now, limit, n)[i] == Admitted <==> i < limit)
  {
    BurstFrom(m, ip, now, limit, n, 0);
  }

  /** The sweep run every minute: drops exactly the buckets whose reset
      time is strictly before `now` and keeps the others unchanged. */
  function Sweep(m: Buckets, now: int): (r: Buckets)
    ensures forall k :: k in r <==> k in m && now <= m[k].reset
    ensures forall k :: k in r ==> r[k] == m[k]
  {
    map k | k in m && !(m[k].reset < now) :: m[k]
  }

  /** The sweep body applied to both maps: in each, exactly the buckets
      expired before `now` go, and the others stay as they were. */
  function SweepAll(l: Limiters, now: int): (r: Limiters)
    ensures forall k :: k in r.global <==> k in l.global && now <= l.global[k].reset
    ensures forall k :: k in r.global ==> r.global[k] == l.global[k]
    ensures forall k :: k in r.ai <==> k in l.ai && now <= l.ai[k].reset
    ensures forall k :: k in r.ai ==> r.ai[k] == l.ai[k]
  {
    Limiters(Sweep(l.global, now), Sweep(l.ai, now))
  }

  /** Sweeping is unobservable: a later call sees the same verdict whether
      or not the expired buckets were dropped, and for a limit of at least
      one it leaves the caller's bucket in the same state. */
  lemma SweepIsUnobservable(m: Buckets, ip: string, now: int, later: int, limit: int)
    requires now <= later
    ensures RateLimiter(Sweep(m, now), ip, later, limit).verdict == RateLimiter(m, ip, later, limit).verdict
    ensures 1 <= limit ==>
      Lookup(RateLimiter(Sweep(m, now), ip, later, limit).buckets, ip) == Lookup(RateLimiter(m, ip, later, limit).buckets, ip)
  {
    var s := Sweep(m, now);
    assert LiveCount(s, ip, later) == LiveCount(m, ip, later);
    assert LiveReset(s, ip, later) == LiveReset(m, ip, later);
  }

  function Lookup(m: Buckets, ip: string): Option<Bucket>
  {
    if ip in m then Some(m[ip]) else None
  }
}

=== FILE: seqs.dfy ===
/**
 * Order-preserving selection and reversal of sequences: the two ways the
 * route handlers read an abstract table (`.eq(…)` filters, `.order(…)`
 * over rows kept in insertion order).
 */
module Seqs {
  /** The elements satisfying `p`, in their original order. */
  function Filter<T>(s: seq<T>, p: T -> bool): (r: seq<T>)
    ensures |r| <= |s|
    ensures forall i :: 0 <= i < |r| ==> p(r[i]) && r[i] in s
    ensures forall i :: 0 <= i < |s| && p(s[i]) ==> s[i] in r
    decreases |s|
  {
    if |s| == 0 then []
    else if p(s[0]) then [s[0]] + Filter(s[1..], p)
    else Filter(s[1..], p)
  }

  /** Selection works piecewise, so it keeps the relative order. */
  lemma {:induction false} FilterAppend<T>(a: seq<T>, b: seq<T>, p: T -> bool)
    ensures Filter(a + b, p) == Filter(a, p) + Filter(b, p)
    decreases |a|
  {
    if |a| == 0 {
      assert a + b == b;
    } else {
      assert (a + b)[0] == a[0];
      assert (a + b)[1..] == a[1..] + b;
      FilterAppend(a[1..], b, p);
    }
  }

  /** Selection keeps every selected element as often as it occurred and
      drops the rest entirely. */
  lemma {:induction false} FilterCount<T>(s: seq<T>, p: T -> bool, x: T)
    ensures multiset(Filter(s, p))[x] == if p(x) then multiset(s)[x] else 0
    decreases |s|
  {
    if |s| > 0 {
      FilterCount(s[1..], p, x);
      assert s == [s[0]] + s[1..];
    }
  }

  /** Selecting with two conditions one after the other is selecting with
      both at once. */
  lemma {:induction false} FilterFilter<T>(s: seq<T>, p: T -> bool, q: T -> bool, pq: T -> bool)
    requires forall x :: pq(x) == (p(x) && q(x))
    ensures Filter(Filter(s, p), q) == Filter(s, pq)
    decreases |s|
  {
    if |s| > 0 {
      FilterFilter(s[1..], p, q, pq);
      if p(s[0]) {
        assert Filter(s, p) == [s[0]] + Filter(s[1..], p);
        assert Filter(s, p)[0] == s[0];
        assert Filter(s, p)[1..] == Filter(s[1..], p);
      }
    }
  }

  lemma AppendAssoc<T>(a: seq<T>, b: seq<T>, c: seq<T>)
    ensures a + (b + c) == (a + b) + c
  {
  }

  lemma ConsAssoc<T>(x: T, a: seq<T>, b: seq<T>)
    ensures [x] + (a + b) == ([x] + a) + b
  {
  }

  lemma AppendTail<T>(a: seq<T>, b: seq<T>)
    requires |a| >= 1
    ensures (a + b)[0] == a[0]
    ensures (a + b)[1..] == a[1..] + b
  {
  }

  /** `s` in the opposite order. */
  function Reverse<T>(s: seq<T>): (r: seq<T>)
    ensures |r| == |s|
    ensures forall i :: 0 <= i < |s| ==> r[i] == s[|s| - 1 - i]
    decreases |s|
  {
    if |s| == 0 then [] else Reverse(s[1..]) + [s[0]]
  }
}

=== FILE: text.dfy ===
/**
 * String helpers shared by the model: the whitespace set that stands for
 * JavaScript's `trim`, prefix tests, `split("\n")` and decimal rendering
 * of non-negative integers (`Number.prototype.toString`).
 */
module Text {
  import opened Seqs

  /** The fixed whitespace set used for `String.prototype.trim`:
      space, tab, line feed, carriage return, vertical tab and form feed. */
  predicate IsSpace(c: char) {
    c == ' ' || c == '\t' || c == '\n' || c == '\r' || c as int == 11 || c as int == 12
  }

  predicate AllSpace(s: string) {
    forall i :: 0 <= i < |s| ==> IsSpace(s[i])
  }

  /** `s.startsWith(p)` */
  predicate StartsWith(s: string, p: string) {
    |p| <= |s| && s[..|p|] == p
  }

  /** No whitespace at either end. */
  predicate IsTrimmed(s: string) {
    s == [] || (!IsSpace(s[0]) && !IsSpace(s[|s| - 1]))
  }

  /** Drops the leading run of whitespace: the result is a suffix of `s`
      and everything dropped is whitespace. */
  function TrimStart(s: string): (r: string)
    ensures |r| <= |s| && r == s[|s| - |r|..]
    ensures r == [] || !IsSpace(r[0])
    ensures AllSpace(s[..|s| - |r|])
    decreases |s|
  {
    if |s| > 0 && IsSpace(s[0]) then
      var t := s[1..];
      var r := TrimStart(t);
      assert s[..|s| - |r|] == [s[0]] + t[..|t| - |r|];
      r
    else s
  }

  /** Drops the trailing run of whitespace: the result is a prefix of `s`
      and everything dropped is whitespace. */
  function TrimEnd(s: string): (r: string)
    ensures |r| <= |s| && r == s[..|r|]
    ensures r == [] || !IsSpace(r[|r| - 1])
    ensures AllSpace(s[|r|..])
    decreases |s|
  {
    if |s| > 0 && IsSpace(s[|s| - 1]) then
      var t := s[..|s| - 1];
      var r := TrimEnd(t);
      assert s[|r|..] == t[|r|..] + [s[|s| - 1]];
      r
    else s
  }

  /** Trimming only removes characters, so it adds none. */
  lemma TrimKeepsOut(s: string, c: char)
    requires c !in s
    ensures c !in Trim(s)
  {
  }

  /** `r` is what is left of `s` after removing its first `k` characters
      and some tail, everything removed being whitespace. */
  predicate SpaceAround(s: string, k: int, r: string) {
    && 0 <= k && k + |r| <= |s|
    && s[k..k + |r|] == r
    && AllSpace(s[..k]) && AllSpace(s[k + |r|..])
  }

  /** `s.trim()` */
  function Trim(s: string): (r: string)
    ensures IsTrimmed(r)
    ensures |r| <= |s|
    ensures IsTrimmed(s) ==> r == s
    ensures r == [] <==> AllSpace(s)
  {
    var t := TrimStart(s);
    var r := TrimEnd(t);
    TrimmedCore(s, t, r);
    r
  }

  /** What the two removals promise, put together: `t` is `s` without its
      leading whitespace and `r` is `t` without its trailing whitespace. */
  lemma TrimmedCore(s: string, t: string, r: string)
    requires |t| <= |s| && t == s[|s| - |t|..] && AllSpace(s[..|s| - |t|])
    requires t == [] || !IsSpace(t[0])
    requires |r| <= |t| && r == t[..|r|] && AllSpace(t[|r|..])
    requires r == [] || !IsSpace(r[|r| - 1])
    ensures IsTrimmed(r)
    ensures IsTrimmed(s) ==> r == s
    ensures r == [] <==> AllSpace(s)
  {
    var j := |s| - |t|;
    if r == [] {
      assert AllSpace(t);
      assert s == s[..j] + t;
    } else {
      assert r[0] == t[0] == s[j];
    }
  }

  /** The trim removes whitespace only, and only at the two ends: what is
      left is a contiguous slice of `s` with nothing but whitespace around
      it. */
  lemma TrimRemovesOnlySurroundingSpace(s: string)
    ensures exists k :: 0 <= k <= |s| && SpaceAround(s, k, Trim(s))
  {
    var t := TrimStart(s);
    var r := TrimEnd(t);
    var k := |s| - |t|;
    assert s[k..k + |r|] == r && s[k + |r|..] == t[|r|..];
    assert r == Trim(s) && SpaceAround(s, k, r);
  }

  /** Removing whitespace from both ends leaves a trimmed string in one
      way only: it is `Trim(s)`. With the lemma above, this pins the trim
      down completely. */
  lemma TrimUnique(s: string, k: int, r: string)
    requires SpaceAround(s, k, r) && IsTrimmed(r)
    ensures r == Trim(s)
  {
    if r == [] {
      assert s == s[..k] + s[k..];
      assert AllSpace(s);
    } else {
      assert s[k] == r[0];
      TrimStartUnique(s, k);
      var t := s[k..];
      assert t[..|r|] == r && t[|r|..] == s[k + |r|..];
      TrimEndUnique(t, r);
    }
  }

  /** A leading-whitespace removal that leaves a non-space first character
      is `TrimStart`. */
  lemma {:induction false} TrimStartUnique(s: string, k: nat)
    requires k < |s| && AllSpace(s[..k]) && !IsSpace(s[k])
    ensures TrimStart(s) == s[k..]
    decreases k
  {
    if k > 0 {
      assert s[..k][0] == s[0];
      assert s[1..][..k - 1] == s[1..k];
      TrimStartUnique(s[1..], k - 1);
      assert s[1..][k - 1..] == s[k..];
    }
  }

  /** A trailing-whitespace removal that leaves a non-space last character
      is `TrimEnd`. */
  lemma TrimEndUnique(t: string, r: string)
    requires StartsWith(t, r) && AllSpace(t[|r|..]) && IsTrimmed(r) && r != []
    ensures TrimEnd(t) == r
  {
    assert t[|r| - 1] == r[|r| - 1];
  }

  /** `s.trim() === ""` */
  predicate IsBlank(s: string) {
    Trim(s) == []
  }

  /** `s.split("\n")`: every line break ends a piece, so a string with k
      line breaks yields k + 1 pieces (an empty string yields one empty piece). */
  function SplitLines(s: string): (r: seq<string>)
    ensures |r| >= 1
    decreases |s|
  {
    if |s| == 0 then [[]]
    else
      var rest := SplitLines(s[1..]);
      if s[0] == '\n' then [[]] + rest
      else [[s[0]] + rest[0]] + rest[1..]
  }

  /** No piece of a split contains a line break. */
  lemma {:induction false} SplitLinesHaveNoBreaks(s: string)
    ensures forall i :: 0 <= i < |SplitLines(s)| ==> '\n' !in SplitLines(s)[i]
    decreases |s|
  {
    if |s| > 0 {
      SplitLinesHaveNoBreaks(s[1..]);
      var rest := SplitLines(s[1..]);
      if s[0] != '\n' {
        assert forall c :: c in [s[0]] + rest[0] ==> c == s[0] || c in rest[0];
      }
    }
  }

  /** `pieces.join("\n")` */
  function JoinLines(pieces: seq<string>): string
    requires |pieces| >= 1
  {
    if |pieces| == 1 then pieces[0] else pieces[0] + "\n" + JoinLines(pieces[1..])
  }

  lemma PrependAssoc(c: char, x: string, y: string, z: string)
    ensures (([c] + x) + y) + z == [c] + ((x + y) + z)
  {
  }

  lemma JoinExtendHead(c: char, rest: seq<string>)
    requires |rest| >= 1
    ensures JoinLines([[c] + rest[0]] + rest[1..]) == [c] + JoinLines(rest)
  {
    var ls := [[c] + rest[0]] + rest[1..];
    assert ls[1..] == rest[1..];
    if |rest| > 1 {
      PrependAssoc(c, rest[0], "\n", JoinLines(rest[1..]));
    }
  }

  /** Splitting loses nothing: joining the pieces back gives the input. */
  lemma {:induction false} SplitThenJoin(s: string)
    ensures JoinLines(SplitLines(s)) == s
    decreases |s|
  {
    if |s| > 0 {
      var rest := SplitLines(s[1..]);
      SplitThenJoin(s[1..]);
      if s[0] == '\n' {
        assert ([[]] + rest)[1..] == rest;
      } else {
        JoinExtendHead(s[0], rest);
      }
      assert s == [s[0]] + s[1..];
    }
  }

  /** A line break splits the input into the pieces of each side. */
  lemma {:induction false} SplitAtLineBreak(a: string, b: string)
    ensures SplitLines(a + "\n" + b) == SplitLines(a) + SplitLines(b)
    decreases |a|
  {
    var s := a + "\n" + b;
    if |a| == 0 {
      assert s[0] == '\n';
      assert s[1..] == b;
    } else {
      assert s[0] == a[0];
      assert s[1..] == a[1..] + "\n" + b;
      SplitAtLineBreak(a[1..], b);
      var restA := SplitLines(a[1..]);
      if a[0] == '\n' {
        ConsAssoc([], restA, SplitLines(b));
      } else {
        AppendTail(restA, SplitLines(b));
        ConsAssoc([a[0]] + restA[0], restA[1..], SplitLines(b));
      }
    }
  }

  predicate IsDigit(c: char) {
    '0' <= c <= '9'
  }

  function DigitChar(d: nat): (c: char)
    requires d < 10
    ensures IsDigit(c)
  {
    ['0', '1', '2', '3', '4', '5', '6', '7', '8', '9'][d]
  }

  function DigitValue(c: char): (d: nat)
    requires IsDigit(c)
    ensures d < 10
  {
    (c as int - '0' as int)
  }

  predicate AllDigits(s: string) {
    forall i :: 0 <= i < |s| ==> IsDigit(s[i])
  }

  /** The number a string of decimal digits denotes. */
  function DigitsValue(s: string): nat
    requires AllDigits(s)
  {
    if |s| == 0 then 0 else DigitsValue(s[..|s| - 1]) * 10 + DigitValue(s[|s| - 1])
  }

  /** `n.toString()` for a non-negative integer: decimal digits, no sign,
      no leading zero except for `"0"` itself. */
  function NatToString(n: nat): (r: string)
    ensures |r| >= 1
    ensures AllDigits(r)
    ensures r[0] != '0' || r == "0"
    decreases n
  {
    if n < 10 then [DigitChar(n)] else NatToString(n / 10) + [DigitChar(n % 10)]
  }

  /** Reading the rendered digits back gives the number. */
  lemma {:induction false} NatToStringRoundTrip(n: nat)
    ensures DigitsValue(NatToString(n)) == n
    decreases n
  {
    if n >= 10 {
      var p := NatToString(n / 10);
      var s := p + [DigitChar(n % 10)];
      assert s[..|s| - 1] == p;
      NatToStringRoundTrip(n / 10);
      assert DigitValue(DigitChar(n % 10)) == n % 10;
    } else {
      assert DigitValue(DigitChar(n)) == n;
    }
  }

  /** The longest run of decimal digits a string starts with. */
  function LeadingDigits(s: string): (r: string)
    ensures AllDigits(r)
    ensures StartsWith(s, r)
    decreases |s|
  {
    if |s| > 0 && IsDigit(s[0]) then [s[0]] + LeadingDigits(s[1..]) else []
  }

  /** Digits followed by a non-digit are read back exactly. */
  lemma {:induction false} LeadingDigitsOfPrefix(d: string, rest: string)
    requires AllDigits(d)
    requires rest == [] || !IsDigit(rest[0])
    ensures LeadingDigits(d + rest) == d
    decreases |d|
  {
    if |d| == 0 {
      assert d + rest == rest;
    } else {
      assert (d + rest)[0] == d[0];
      assert (d + rest)[1..] == d[1..] + rest;
      LeadingDigitsOfPrefix(d[1..], rest);
      assert d == [d[0]] + d[1..];
    }
  }
}

=== FILE: title_route.dfy ===
/**
 * `POST /api/mistral/title`: the non-streaming title request. It runs the
 * AI-bucket rate limiter, then consumes the daily quota, and only then
 * checks the API key; a quota denial answers 429 with a `Retry-After`
 * header in seconds (RFC 9110, section 10.2.3).
 */
module TitleRoute {
  import opened Wrappers
  import opened Text
  import opened Http
  import opened RateLimit
  import opened DailyLimit
  import opened ConversationsContext
  import opened Upstream
  import ChatRoute

  const TitleModel: string := "mistral-medium-latest"
  const TitleMaxTokens: int := 300
  const TitlePrompt: string :=
    "You are a title generator. Your job is to produce a clear, concise, short (max 50 characters), and relevant title summarizing the user's message. Output only the title, with no punctuation or introductions. Use the same language as the message."

  /** What `await req.json()` yields for the `message` field. The field is
      only cast to a string, never checked: when it is absent or holds any
      other JSON value, `OtherMessage` keeps that value's JSON text (`None`
      when absent). `Malformed` is a body whose read or destructuring
      throws. */
  datatype TitleBody = TitleMessage(message: string) | OtherMessage(content: Option<Json>) | Malformed

  /** The upstream JSON is returned as it came, so it is an opaque value. */
  type Json = string

  datatype TitleResult = TitleResult(ai: Buckets, quota: Row, reply: Reply<Json>, sent: Option<UpstreamRequest>)

  /** The user element as `JSON.stringify` writes `{ role: 'user', content }`
      for a content that is not a string: an absent content drops the key. */
  function UserElementJson(content: Option<Json>): Json
  {
    match content
    case None => "{\"role\":\"user\"}"
    case Some(v) => UserElementHead + v + "}"
  }

  const UserElementHead: Json := "{\"role\":\"user\",\"content\":"

  /** Different contents give different elements: the value reaches the
      API as it came. */
  lemma UserElementJsonInjective(a: Option<Json>, b: Option<Json>)
    requires UserElementJson(a) == UserElementJson(b)
    ensures a == b
  {
    var ja, jb := UserElementJson(a), UserElementJson(b);
    // the character after `"user"` tells the two shapes apart
    assert ja[14] == (if a.Some? then ',' else '}');
    assert jb[14] == (if b.Some? then ',' else '}');
    if a.Some? && b.Some? {
      assert a.value == ja[|UserElementHead|..|ja| - 1];
      assert b.value == jb[|UserElementHead|..|jb| - 1];
    }
  }

  /** The user element of the upstream request. */
  function UserElement(body: TitleBody): UpstreamMessage
    requires !body.Malformed?
  {
    match body
    case TitleMessage(message) => Forwarded(Wire(WireMessage(None, User, message)))
    case OtherMessage(content) => Forwarded(OtherValue(UserElementJson(content)))
  }

  function UpstreamTitle(body: TitleBody): UpstreamRequest
    requires !body.Malformed?
  {
    UpstreamRequest(TitleModel, [System(TitlePrompt), UserElement(body)], TitleMaxTokens, false)
  }

  /** `daily.retryAfter?.toString() || "1"`: the denial always carries a
      number, so the fallback is never taken. */
  function RetryAfterHeader(retryAfter: nat): (header: string)
    ensures |header| >= 1
    ensures AllDigits(header) && DigitsValue(header) == retryAfter
  {
    NatToStringRoundTrip(retryAfter);
    NatToString(retryAfter)
  }

  function Post(ai: Buckets, quota: Row, quotaReadOk: bool, quotaWrites: Writes, h: Headers, now: int, apiKey: Option<string>,
                body: TitleBody, upstream: Outcome<Json>): (r: TitleResult)
    // the limiter runs first; a limited request consumes no quota
    ensures r.ai == RateLimiter(ai, GetIP(h), now, ChatRoute.AiLimit).buckets
    ensures RateLimiter(ai, GetIP(h), now, ChatRoute.AiLimit).verdict == Rejected ==>
      r.reply == ErrorReply(429, Text(TooManyRequests), None) && r.quota == quota && r.sent == None
    // then the quota; it is consumed before the key is looked at
    ensures RateLimiter(ai, GetIP(h), now, ChatRoute.AiLimit).verdict == Admitted ==>
      r.quota == CheckAndUpdate(quota, quotaReadOk, quotaWrites, now).row
    ensures RateLimiter(ai, GetIP(h), now, ChatRoute.AiLimit).verdict == Admitted && !quotaReadOk ==>
      r.reply == Uncaught && r.quota == quota
    ensures (RateLimiter(ai, GetIP(h), now, ChatRoute.AiLimit).verdict == Admitted
             && CheckAndUpdate(quota, quotaReadOk, quotaWrites, now).decision.Denied?) ==>
      var ra := CheckAndUpdate(quota, quotaReadOk, quotaWrites, now).decision.retryAfter;
      && r.reply.ErrorReply? && r.reply.status == 429 && r.reply.error == DailyLimitText(ra)
      && r.reply.retryAfterHeader.Some? && AllDigits(r.reply.retryAfterHeader.value)
      && DigitsValue(r.reply.retryAfterHeader.value) == ra
      && r.sent == None
    ensures (RateLimiter(ai, GetIP(h), now, ChatRoute.AiLimit).verdict == Admitted
             && quotaReadOk && CountAt(quota, now) >= Limit) ==>
      && r.reply.ErrorReply? && r.reply.status == 429 && r.reply.retryAfterHeader.Some?
      && DeniedUntil(Denied(DigitsValue(r.reply.retryAfterHeader.value)), WindowEnd(quota, now), now)
      && r.sent == None
    ensures (RateLimiter(ai, GetIP(h), now, ChatRoute.AiLimit).verdict == Admitted
             && CheckAndUpdate(quota, quotaReadOk, quotaWrites, now).decision == Allowed && !Truthy(apiKey)) ==>
      r.reply == ErrorReply(500, Text(ApiKeyNotConfigured), None)
      && (quotaWrites.incrementLands ==> r.quota.count == CountAt(quota, now) + 1)
    // the upstream request: fixed instruction, then the message verbatim
    ensures r.sent.Some? <==>
      && RateLimiter(ai, GetIP(h), now, ChatRoute.AiLimit).verdict == Admitted
      && CheckAndUpdate(quota, quotaReadOk, quotaWrites, now).decision == Allowed
      && Truthy(apiKey) && !body.Malformed?
    ensures (RateLimiter(ai, GetIP(h), now, ChatRoute.AiLimit).verdict == Admitted
             && CheckAndUpdate(quota, quotaReadOk, quotaWrites, now).decision == Allowed && Truthy(apiKey) && body.Malformed?) ==>
      r.reply == ErrorReply(500, Text(InternalServerError), None)
    ensures r.sent.Some? && body.TitleMessage? ==>
      r.sent.value.messages == [System(TitlePrompt), Forwarded(Wire(WireMessage(None, User, body.message)))]
    ensures r.sent.Some? && body.OtherMessage? ==>
      r.sent.value.messages == [System(TitlePrompt), Forwarded(OtherValue(UserElementJson(body.content)))]
    ensures r.sent.Some? ==>
      && r.sent.value.maxTokens == TitleMaxTokens && !r.sent.value.stream && r.sent.value.model == TitleModel
    // the upstream outcome
    ensures r.sent.Some? && upstream.Answered? && !IsOk(upstream.status) ==>
      r.reply == ErrorReply(upstream.status, Text(ApiErrorText(upstream.status, upstream.statusText, upstream.errorText)), None)
    ensures r.reply.JsonReply? <==> r.sent.Some? && upstream.Answered? && IsOk(upstream.status) && upstream.body.Some?
    ensures r.reply.JsonReply? ==> r.reply == JsonReply(200, upstream.body.value)
    ensures r.sent.Some? && (upstream.Threw? || (IsOk(upstream.status) && upstream.body.None?)) ==>
      r.reply == ErrorReply(500, Text(InternalServerError), None)
  {
    var gate := RateLimiter(ai, GetIP(h), now, ChatRoute.AiLimit);
    if gate.verdict == Rejected then TitleResult(gate.buckets, quota, ErrorReply(429, Text(TooManyRequests), None), None)
    else
      var daily := CheckAndUpdate(quota, quotaReadOk, quotaWrites, now);
      match daily.decision
      case ReadFailed => TitleResult(gate.buckets, daily.row, Uncaught, None)
      case Denied(ra) =>
        TitleResult(gate.buckets, daily.row, ErrorReply(429, DailyLimitText(ra), Some(RetryAfterHeader(ra))), None)
      case Allowed =>
        if !Truthy(apiKey) then TitleResult(gate.buckets, daily.row, ErrorReply(500, Text(ApiKeyNotConfigured), None), None)
        else match body
          case Malformed => TitleResult(gate.buckets, daily.row, ErrorReply(500, Text(InternalServerError), None), None)
          case _ =>
            var reply :=
              match upstream
              case Threw => ErrorReply(500, Text(InternalServerError), None)
              case Answered(status, statusText, errorText, data) =>
                if !IsOk(status) then ErrorReply(status, Text(ApiErrorText(status, statusText, errorText)), None)
                else if data.None? then ErrorReply(500, Text(InternalServerError), None)
                else JsonReply(200, data.value);
            TitleResult(gate.buckets, daily.row, reply, Some(UpstreamTitle(body)))
  }
}

=== FILE: upstream.dfy ===
/**
 * The request the model routes send to the Mistral chat-completions API,
 * and the outcome of that `fetch`, which is a parameter of the routes.
 */
module Upstream {
  import opened Wrappers
  import opened Text
  import opened ConversationsContext

  /** One element of a `messages` array as a route receives it. The chat
      route only checks that the field is an array, so besides a message
      as the client component builds it, an element may be an object with
      any other role (`"system"` included) and string content, or any other
      JSON value (non-string content, extra fields, not an object at all),
      kept here as its JSON text. Every kind is forwarded as it is. */
  datatype ClientElement = Wire(message: WireMessage) | OtherRole(role: string, content: string) | OtherValue(json: string)

  /** A message written by the server, or a client element passed on. */
  datatype UpstreamMessage = System(content: string) | Forwarded(element: ClientElement)

  /** The message carries the `system` role: one the server wrote, or a
      client element that claims it. */
  predicate HasSystemRole(m: UpstreamMessage) {
    m.System? || (m.element.OtherRole? && m.element.role == "system")
  }

  datatype UpstreamRequest = UpstreamRequest(model: string, messages: seq<UpstreamMessage>, maxTokens: int, stream: bool)

  /** What the `fetch` to the API produced: a thrown error, or a response
      with its status, status text, error text (read only when not OK) and
      a body (`None` when the stream body is null or the JSON read throws). */
  datatype Outcome<B> = Threw | Answered(status: nat, statusText: string, errorText: string, body: Option<B>)

  /** `Mistral API error: ${status} ${statusText} - ${errorText}` */
  function ApiErrorText(status: nat, statusText: string, errorText: string): string
  {
    "Mistral API error: " + NatToString(status) + " " + statusText + " - " + errorText
  }

  /** Wraps the client's elements, one upstream message each, in order. */
  function ForwardAll(msgs: seq<ClientElement>): (r: seq<UpstreamMessage>)
    ensures |r| == |msgs|
    ensures forall i :: 0 <= i < |msgs| ==> r[i] == Forwarded(msgs[i])
  {
    seq(|msgs|, i requires 0 <= i < |msgs| => Forwarded(msgs[i]))
  }

  /** The client elements contained in an upstream message list: the
      server's messages dropped, forwarded ones unwrapped. */
  function ClientPart(ms: seq<UpstreamMessage>): seq<ClientElement>
    decreases |ms|
  {
    if |ms| == 0 then []
    else match ms[0]
      case System(_) => ClientPart(ms[1..])
      case Forwarded(m) => [m] + ClientPart(ms[1..])
  }

  /** Forwarding loses, adds and reorders nothing. */
  lemma {:induction false} ForwardAllRoundTrip(msgs: seq<ClientElement>)
    ensures ClientPart(ForwardAll(msgs)) == msgs
    decreases |msgs|
  {
    if |msgs| > 0 {
      ForwardAllRoundTrip(msgs[1..]);
      assert ForwardAll(msgs)[1..] == ForwardAll(msgs[1..]);
      assert msgs == [msgs[0]] + msgs[1..];
    }
  }
}

=== FILE: user_input.dfy ===
/**
 * The chat input box (`UserInput`): a submit appends the user's message
 * and an empty assistant placeholder, clears the input, posts the
 * transcript (to `/api/mistral`, taken here as reaching the chat route)
 * and streams the answer into the placeholder. The `fetch` outcome and
 * the fresh message ids are parameters.
 */
module UserInput {
  import opened Wrappers
  import opened Text
  import opened ConversationsContext
  import opened StreamDecoder

  /** The transcript of the open conversation and the input field. */
  datatype InputState = InputState(messages: seq<Message>, input: string)

  /** The state after the synchronous part of `handleSubmit`, and the
      `messages` array of the request body when a request is sent. */
  datatype Submitted = Submitted(state: InputState, payload: Option<seq<WireMessage>>)

  /** What the chat `fetch` produced: it threw, the response had no body,
      or the body delivered these chunks. */
  datatype ChatResponse = FetchThrew | NoBody | Body(chunks: seq<string>)

  function ToWireAll(msgs: seq<Message>): (r: seq<WireMessage>)
    ensures |r| == |msgs|
    ensures forall i :: 0 <= i < |msgs| ==> r[i] == ToWire(msgs[i])
  {
    seq(|msgs|, i requires 0 <= i < |msgs| => ToWire(msgs[i]))
  }

  /** The synchronous part of `handleSubmit`. The payload is built from the
      transcript as it was before the two appends. */
  function HandleSubmit(s: InputState, userId: string, assistantId: string): (r: Submitted)
    ensures IsBlank(s.input) <==> r.payload.None?
    ensures IsBlank(s.input) ==> r.state == s
    ensures !IsBlank(s.input) ==>
      && |r.state.messages| == |s.messages| + 2
      && r.state.messages[..|s.messages|] == s.messages
      && r.state.messages[|s.messages|] == Message(userId, User, s.input)
      && r.state.messages[|s.messages| + 1] == Message(assistantId, Assistant, "")
      && r.state.input == ""
    // The request carries the new transcript minus the placeholder: the
    // same roles and contents, message for message.
    ensures r.payload.Some? ==>
      && |r.payload.value| + 1 == |r.state.messages|
      && (forall i :: 0 <= i < |r.payload.value| ==>
            r.payload.value[i].role == r.state.messages[i].role
            && r.payload.value[i].content == r.state.messages[i].content)
  {
    if IsBlank(s.input) then Submitted(s, None)
    else
      var withUser := AddMessage(s.messages, User, s.input, userId);
      var withPlaceholder := AddMessage(withUser, Assistant, "", assistantId);
      Submitted(InputState(withPlaceholder, ""), Some(ToWireAll(s.messages) + [WireMessage(None, User, s.input)]))
  }

  /** A whole turn: submit, then feed the decoded stream's callback
      arguments to `updateLastMessage`. A thrown fetch or a missing body is
      only logged, so the optimistic messages stay and the input stays
      cleared. */
  function Turn(s: InputState, userId: string, assistantId: string, resp: ChatResponse, parse: Parser): (r: InputState)
    ensures IsBlank(s.input) ==> r == s
    ensures !IsBlank(s.input) && !resp.Body? ==> r == HandleSubmit(s, userId, assistantId).state
    ensures !IsBlank(s.input) ==>
      && |r.messages| == |s.messages| + 2
      && r.messages[..|s.messages| + 1] == HandleSubmit(s, userId, assistantId).state.messages[..|s.messages| + 1]
      && r.messages[|s.messages| + 1].id == assistantId
      && r.messages[|s.messages| + 1].role == Assistant
      && r.input == ""
  {
    var sub := HandleSubmit(s, userId, assistantId);
    if sub.payload.None? then s
    else match resp
      case FetchThrew => sub.state
      case NoBody => sub.state
      case Body(chunks) =>
        var updates := DecodeChunks(Start, chunks, parse).updates;
        ApplyUpdatesKeepsPrefix(sub.state.messages, updates);
        InputState(ApplyUpdates(sub.state.messages, updates), sub.state.input)
  }

  /** The updates touch only the last message's content. */
  lemma {:induction false} ApplyUpdatesKeepsPrefix(msgs: seq<Message>, updates: seq<string>)
    requires |msgs| > 0
    ensures ApplyUpdates(msgs, updates)[..|msgs| - 1] == msgs[..|msgs| - 1]
    ensures ApplyUpdates(msgs, updates)[|msgs| - 1].id == msgs[|msgs| - 1].id
    ensures ApplyUpdates(msgs, updates)[|msgs| - 1].role == msgs[|msgs| - 1].role
    decreases |updates|
  {
    if |updates| > 0 {
      ApplyUpdatesKeepsPrefix(UpdateLastMessage(msgs, updates[0]), updates[1..]);
    }
  }

  /** After a completed turn the assistant message holds the whole decoded
      answer: the concatenation of the stream's tokens (the placeholder's
      `""` when there are none). */
  lemma CompletedTurnTranscript(s: InputState, userId: string, assistantId: string, chunks: seq<string>, parse: Parser)
    requires !IsBlank(s.input)
    ensures var r := Turn(s, userId, assistantId, Body(chunks), parse);
      && r.messages[|s.messages|] == Message(userId, User, s.input)
      && r.messages[|s.messages| + 1].content == Concat(StreamTokens(chunks, parse))
  {
    var sub := HandleSubmit(s, userId, assistantId);
    var d := DecodeChunks(Start, chunks, parse);
    StreamMeaning(chunks, parse);
    var msgs := sub.state.messages;
    if |d.updates| > 0 {
      ApplyUpdatesKeepsLast(msgs, d.updates);
    } else {
      assert ApplyUpdates(msgs, d.updates) == msgs;
    }
  }
}

=== FILE: user_page.dfy ===
/**
 * The password form of the user page: `updatePassword` for accounts that
 * have a password, `createPassword` for Google-only accounts. The form
 * fields and the error line are the state; the response to the request
 * is a parameter.
 */
module UserPage {
  import opened Wrappers
  import opened Http

  const MinLength: nat := 8
  const TooShort: string := "Passwords need to be minimum 8 characters long"
  const Mismatch: string := "New password and confirm password don't match"
  const UpdateFailed: string := "Error while updating your password"
  const CreateFailed: string := "Error while creating your password"

  datatype PasswordForm = PasswordForm(currentPassword: string, newPassword: string, confirmPassword: string, error: string)

  /** The JSON body sent: the update carries the current and the new
      password, the creation only the new one; neither carries the
      confirmation. */
  datatype PasswordRequest = UpdateRequest(currentPassword: string, newPassword: string) | CreateRequest(newPassword: string)

  /** The response as read: its status and the `error` of its JSON body,
      or a failure (`fetch` or `res.json()` throwing) that escapes the
      handler. */
  datatype PasswordResponse = Escaped | Answered(status: int, error: Option<string>)

  datatype FormResult = FormResult(form: PasswordForm, request: Option<PasswordRequest>)

  /** The error a check shows, if any: the length check first, then the
      match check. */
  function CheckPasswords(lengthChecked: seq<string>, newPassword: string, confirmPassword: string): (e: Option<string>)
    ensures e == None <==> (forall i :: 0 <= i < |lengthChecked| ==> |lengthChecked[i]| >= MinLength) && newPassword == confirmPassword
    ensures e.Some? ==> e.value == TooShort || e.value == Mismatch
    ensures e == Some(Mismatch) ==> forall i :: 0 <= i < |lengthChecked| ==> |lengthChecked[i]| >= MinLength
  {
    if exists i :: 0 <= i < |lengthChecked| && |lengthChecked[i]| < MinLength then Some(TooShort)
    else if newPassword != confirmPassword then Some(Mismatch)
    else None
  }

  /** What the form shows after the request was answered. A success clears
      the three fields and leaves the error line as it was. */
  function Settle(f: PasswordForm, resp: PasswordResponse, defaultError: string): (r: PasswordForm)
    ensures resp.Answered? && IsOk(resp.status) ==> r == PasswordForm("", "", "", f.error)
    ensures resp.Answered? && !IsOk(resp.status) ==>
      r == f.(error := if Truthy(resp.error) then resp.error.value else defaultError)
    ensures resp.Escaped? ==> r == f
  {
    match resp
    case Escaped => f
    case Answered(status, error) =>
      if !IsOk(status) then f.(error := if Truthy(error) then error.value else defaultError)
      else PasswordForm("", "", "", f.error)
  }

  /** `updatePassword`. */
  function UpdatePassword(f: PasswordForm, resp: PasswordResponse): (r: FormResult)
    ensures r.request.Some? <==>
      |f.currentPassword| >= MinLength && |f.newPassword| >= MinLength && |f.confirmPassword| >= MinLength && f.newPassword == f.confirmPassword
    ensures (|f.currentPassword| < MinLength || |f.newPassword| < MinLength || |f.confirmPassword| < MinLength) ==>
      r == FormResult(f.(error := TooShort), None)
    ensures |f.currentPassword| >= MinLength && |f.newPassword| >= MinLength && |f.confirmPassword| >= MinLength && f.newPassword != f.confirmPassword ==>
      r == FormResult(f.(error := Mismatch), None)
    ensures r.request.Some? ==>
      r.request.value == UpdateRequest(f.currentPassword, f.newPassword) && r.form == Settle(f, resp, UpdateFailed)
  {
    var checked := [f.currentPassword, f.newPassword, f.confirmPassword];
    assert checked[0] == f.currentPassword && checked[1] == f.newPassword && checked[2] == f.confirmPassword;
    match CheckPasswords(checked, f.newPassword, f.confirmPassword)
    case Some(e) => FormResult(f.(error := e), None)
    case None => FormResult(Settle(f, resp, UpdateFailed), Some(UpdateRequest(f.currentPassword, f.newPassword)))
  }

  /** `createPassword`. */
  function CreatePassword(f: PasswordForm, resp: PasswordResponse): (r: FormResult)
    ensures r.request.Some? <==> |f.newPassword| >= MinLength && |f.confirmPassword| >= MinLength && f.newPassword == f.confirmPassword
    ensures (|f.newPassword| < MinLength || |f.confirmPassword| < MinLength) ==> r == FormResult(f.(error := TooShort), None)
    ensures |f.newPassword| >= MinLength && |f.confirmPassword| >= MinLength && f.newPassword != f.confirmPassword ==>
      r == FormResult(f.(error := Mismatch), None)
    ensures r.request.Some? ==>
      r.request.value == CreateRequest(f.newPassword) && r.form == Settle(f, resp, CreateFailed)
  {
    var checked := [f.newPassword, f.confirmPassword];
    assert checked[0] == f.newPassword && checked[1] == f.confirmPassword;
    match CheckPasswords(checked, f.newPassword, f.confirmPassword)
    case Some(e) => FormResult(f.(error := e), None)
    case None => FormResult(Settle(f, resp, CreateFailed), Some(CreateRequest(f.newPassword)))
  }

  /** The form submits through `updatePassword` exactly when the session's
      providers include "Credentials" (absent providers count as not). */
  function Submit(f: PasswordForm, providers: Option<seq<string>>, resp: PasswordResponse): (r: FormResult)
    ensures providers.Some? && "Credentials" in providers.value ==> r == UpdatePassword(f, resp)
    ensures !(providers.Some? && "Credentials" in providers.value) ==> r == CreatePassword(f, resp)
  {
    if providers.Some? && "Credentials" in providers.value then UpdatePassword(f, resp) else CreatePassword(f, resp)
  }

  /** Creating a password does not look at the current-password field
      except to clear it on success. */
  lemma CreateIgnoresCurrent(f: PasswordForm, other: string, resp: PasswordResponse)
    ensures CreatePassword(f.(currentPassword := other), resp).request == CreatePassword(f, resp).request
    ensures CreatePassword(f.(currentPassword := other), resp).form.error == CreatePassword(f, resp).form.error
  {
  }

  /** Every form the update accepts, the creation accepts too, with the
      same new password. */
  lemma UpdateIsStricter(f: PasswordForm, resp: PasswordResponse)
    ensures UpdatePassword(f, resp).request.Some? ==>
      CreatePassword(f, resp).request == Some(CreateRequest(UpdatePassword(f, resp).request.value.newPassword))
  {
  }
}

=== FILE: wrappers.dfy ===
/** Optional values: JavaScript's `undefined`/`null` next to a present value. */
module Wrappers {

  datatype Option<+T> = None | Some(value: T) {

    /** The value when present, otherwise the given default (`x ?? d`). */
    function GetOr(default: T): T {
      match this
      case Some(v) => v
      case None => default
    }
  }
}
